=== FILE: README.md ===
# IoT sensor simulator — a Dafny model

This project models the core of a weather-station dashboard: the in-browser
`IoTSensorSimulator` (src/data/iotSimulator.ts) and the pure parts of the
`useIoTSensors` hook that presents it (src/hooks/useIoTSensors.ts).

The simulator keeps twelve sensors at fixed Colombian sites. Each sensor has a
reading history capped at 1000 entries and seeded with 100 readings a minute
apart. A list of alerts grows as readings cross thresholds. On every tick each
online, active sensor gets a fresh reading. The reading is appended to its
history and checked against the temperature, humidity and battery rules. The
sensor may then change status or lose one battery unit. The public queries
return the sensors, a history window with averages and trends, the active
alerts newest first, and system statistics. The hook filters the sensor list,
looks up the selected sensor, resolves alerts from the panel, merges partial
filter updates and toggles auto-refresh.

Layout, one module per file:

- `js.dfy` (`Js`): the JavaScript runtime pieces the code relies on:
  `Math.round`/`Math.floor`, conversion of a fractional time to a `Date`,
  decimal `toString`, `padStart` and `Array.prototype.slice` with its
  negative-index rules.
- `types.dfy` (`Types`): the records of src/types/index.ts (sensors, readings,
  alerts, history views, statistics, filters).
- `registry.dfy` (`Registry`): the site table, the `sensor-NNN` ids, lookup by id.
- `generator.dfy` (`Generator`): baseline tables and `generateReading`.
- `history.dfy` (`History`): the capped history, the `slice(-limit)` window,
  averages and trends.
- `alerts.dfy` (`AlertEngine`): `checkAlerts`, `getAlerts`, `resolveAlert`.
- `simulator.dfy` (`Simulator`): the class as a value: construction, one tick,
  queries, start/stop, statistics.
- `dashboard.dfy` (`Dashboard`): the hook's filter, selection, alert panel and
  settings.

Modelling choices:

- Every `Math.random()` call is an explicit draw, a `real` expected in
  `[0, 1)`, grouped per call site (`ReadingDraws`, `SensorDraws`,
  `TickInput`). A sequence of draws is a function from positions to draws.
- Clock readings are parameters. Times are integers in milliseconds. One
  clock value serves the whole update of one sensor: its reading's timestamp,
  and its alerts' ids and timestamps.
- Temperatures, wind speed and coordinates are `real`. Values the code builds
  with `Math.round`/`Math.floor` are `int`.
- A mean over an empty slice is JavaScript's `NaN`, written `None`. The trend
  classifier treats it as the code does: every comparison with `NaN` is false,
  so the trend comes out `falling`. With ten readings or fewer in the window,
  every trend is therefore `falling`.
- `getSensorHistory(id, 0)` computes `slice(-0)`, which is the whole history.
  A negative limit drops readings from the front. Both are modelled as written.
- The baseline lookups use `table[key] || fallback`, so a stored 0 would also
  fall back. Modelled literally.
- The hook's empty-string selection is falsy and selects nothing.
- The stable `sort` of `getAlerts` is a stable insertion sort. Ordering,
  permutation and stability are all proved, which determines the result.
- Statistics count `activeSensors` by status `online`, as the code does; the
  sensors' `isActive` flag plays no part.
- A rare status change sends a sensor offline when the second draw exceeds 0.7
  (about 30% of changes) and to maintenance otherwise
  (src/data/iotSimulator.ts:257-259).
- Alert ids are `alert-<time>-<rule>`: an id determines the clock value and
  the rule (`AlertEngine.AlertIdDetermines`), but not the sensor. Two sensors crossing the same rule in
  the same millisecond get the same id (`AlertEngine.SameMillisecondIdsCollide`).
  `resolveAlert` then resolves only the first. The panel drops every alert
  with that id. `Dashboard.ResolveKeepsPanelConsistent` shows the panel never
  lists a resolved alert.

## Model

| member | source | states |
|---|---|---|
| Registry.SensorIdFor | src/data/iotSimulator.ts:135 | an id starts with `sensor-` and has at least three characters after it |
| Registry.SensorIdNumber | src/data/iotSimulator.ts:135 | the digits after `sensor-` are all digits and parse back to the 1-based site position |
| Registry.SensorIdInjective | src/data/iotSimulator.ts:134-135 | different site positions get different ids |
| Registry.FindSensor | src/data/iotSimulator.ts:333-335 | nothing exactly when no sensor has the id; otherwise the first sensor carrying it |
| Registry.FindSensorUnique | src/data/iotSimulator.ts:333-335 | with unique ids, looking up a listed sensor's id returns that sensor |
| Generator.LookupOr | src/data/iotSimulator.ts:208 | the table entry when present and non-zero, else the fallback (a stored 0 also falls back) |
| Generator.BaseTemperature | src/data/iotSimulator.ts:198-209 | the city's table temperature, 20 for a city not in the table |
| Generator.BaseHumidity | src/data/iotSimulator.ts:211-221 | the zone's table humidity, 65 for a zone not in the table |
| Generator.BasePressure | src/data/iotSimulator.ts:223-234 | the city's table pressure, 1013 for a city not in the table |
| Generator.GenerateReading | src/data/iotSimulator.ts:169-196 | the reading carries the given timestamp; from valid draws humidity is in [0,100], wind speed in [0,50], direction in [0,360), visibility in [0,20000], UV in [0,10], temperature within 5 of the city baseline, humidity within 15 of the zone baseline (clamped to [0,100]), pressure within 25 of the city baseline |
| History.AppendReading | src/data/iotSimulator.ts:243-251 | the new reading becomes the last entry; below the cap nothing is lost, at the cap the oldest reading is shifted out |
| History.AppendKeepsCap | src/data/iotSimulator.ts:246-249 | a history of at most 1000 readings has min(n+1, 1000) after one append |
| History.AppendAllKeepsNewest | src/data/iotSimulator.ts:243-251 | after any run of appends a capped history is exactly the newest min(total, 1000) readings in arrival order |
| History.WindowShape | src/data/iotSimulator.ts:344-347 | `slice(-limit)` is the last min(limit, n) readings for limit >= 1, the whole history for 0, drops -limit readings for a negative limit, and is empty exactly when the history is or -limit >= n |
| History.Window | src/data/iotSimulator.ts:345 | `readings.slice(-limit)`; its shape is stated by `History.WindowShape` |
| History.Recent | src/data/iotSimulator.ts:361 | `slice(-10)`; stated by `History.RecentAndPrevious` |
| History.Previous | src/data/iotSimulator.ts:362 | `slice(-20, -10)`; stated by `History.RecentAndPrevious` |
| History.RecentAndPrevious | src/data/iotSimulator.ts:361-362 | the recent part is the last ten readings and the previous part the up to ten right before them; together a suffix of the window |
| History.Mean | src/data/iotSimulator.ts:350-358 | a mean exists exactly for a non-empty slice (0/0 otherwise) |
| History.MeanWithin | src/data/iotSimulator.ts:350-355 | the mean of values in [lo, hi] is in [lo, hi] |
| History.Classify | src/data/iotSimulator.ts:364-368 | stable iff both means exist and differ by less than 0.5; rising iff the difference is >= 0.5; falling iff it is <= -0.5 or a mean is missing |
| History.Summarize | src/data/iotSimulator.ts:349-398 | the view holds the window itself and averages within rounding of the window means (0.05 for temperature, 0.5 for humidity and pressure) |
| History.SummarizeTrends | src/data/iotSimulator.ts:360-397 | with more than ten readings each trend compares the mean of the last ten with the mean of the up to ten before them |
| History.ShortWindowFalls | src/data/iotSimulator.ts:360-383 | with ten readings or fewer every trend is falling |
| History.AverageHumidityInRange | src/data/iotSimulator.ts:353-355 | readings whose humidity is in [0,100] average, once rounded, to a humidity in [0,100] |
| AlertEngine.TemperatureRule | src/data/iotSimulator.ts:272-290 | an alert iff the temperature is above 35 or below 0; threshold 35/0, critical iff above 40 or below -5, else high; value is the temperature |
| AlertEngine.HumidityRule | src/data/iotSimulator.ts:292-308 | an alert iff humidity is above 90 or below 10; threshold 90/10, critical iff above 95 or below 5, else medium |
| AlertEngine.BatteryRule | src/data/iotSimulator.ts:310-323 | an alert iff the battery is below 20; threshold 20, critical iff below 10, else medium |
| AlertEngine.CheckAlerts | src/data/iotSimulator.ts:269-326 | at most three alerts, all unresolved, well formed, for the sensor and the clock value; each kind present iff its rule fires, carrying the measured value; at most one alert per rule, in the order temperature, humidity, battery; each id is `alert-<now>-<rule suffix>` |
| AlertEngine.SameMillisecondIdsCollide | src/data/iotSimulator.ts:275 | alerts of different sensors raised by the same rule in the same millisecond share an id |
| AlertEngine.AlertId | src/data/iotSimulator.ts:275 | `alert-${Date.now()}-<suffix>`; what the id tells is stated by `AlertEngine.AlertIdParts` and `AlertEngine.AlertIdDetermines` |
| AlertEngine.AlertIdParts | src/data/iotSimulator.ts:275 | an id reads back as the `alert-` prefix, the printed clock value, a dash and the rule suffix (also at lines 295 and 313) |
| AlertEngine.AlertIdDetermines | src/data/iotSimulator.ts:269-326 | two rule ids are equal iff they have the same clock value and the same rule |
| AlertEngine.HotReadingAlerts | src/data/iotSimulator.ts:273-289 | 36 degrees with normal humidity and battery raises exactly one high temperature alert at threshold 35; 41 degrees makes it critical |
| AlertEngine.Unresolved | src/data/iotSimulator.ts:403 | exactly the alerts that are not resolved, as a membership statement |
| AlertEngine.UnresolvedCounts | src/data/iotSimulator.ts:403 | every unresolved alert is kept as often as it occurs in the list, and a resolved one never |
| AlertEngine.UnresolvedConcat | src/data/iotSimulator.ts:403 | the filter distributes over concatenation, so the kept alerts stay in list order |
| AlertEngine.SortNewestFirst | src/data/iotSimulator.ts:404 | newest first, and a permutation of its input |
| AlertEngine.SortIsStable | src/data/iotSimulator.ts:404 | alerts with equal timestamps keep their relative order |
| AlertEngine.GetAlerts | src/data/iotSimulator.ts:401-406 | only unresolved alerts of the list, newest first, min(limit, unresolved count) of them for limit >= 0, a prefix of the sorted unresolved alerts |
| AlertEngine.GetAlertsAll | src/data/iotSimulator.ts:401-406 | a limit covering every unresolved alert lists each of them, with multiplicity |
| Types.FirstWithKey | src/data/iotSimulator.ts:409 | the position of the first record whose id is the one sought, nothing iff none has it (used for alerts and sensors alike) |
| AlertEngine.ResolveAlert | src/data/iotSimulator.ts:408-415 | reports whether an alert has the id; marks the first such alert resolved and changes nothing else; the list is unchanged otherwise |
| AlertEngine.ResolveActiveCount | src/data/iotSimulator.ts:408-415 | the active count drops by one exactly when the first alert with the id was unresolved |
| AlertEngine.ResolveUniqueLeavesListing | src/data/iotSimulator.ts:401-415 | when at most one alert has the id, after resolving it no listed alert carries it |
| Simulator.TimeAgo | src/data/iotSimulator.ts:145-150 | a date a random fraction of the span before now lies within [now - span, now] |
| Simulator.MakeSensor | src/data/iotSimulator.ts:134-152 | id and site as given; online iff the draw exceeds 0.1, else offline; active iff the draw exceeds 0.05; battery and signal in [0,99]; install date within a year and maintenance within 90 days before now |
| Simulator.SeedPushes | src/data/iotSimulator.ts:157-164 | the seeding loop pushes one reading per minute going back from now |
| Simulator.SeedHistoryShape | src/data/iotSimulator.ts:155-166 | a seeded history has 100 readings a minute apart, oldest first, the newest stamped now |
| Simulator.SeedReadings | src/data/iotSimulator.ts:155-166 | the history map has exactly the sensors' ids as keys |
| Simulator.SeedReadingsAt | src/data/iotSimulator.ts:155-166 | with unique ids the history stored under a seeded sensor's id is that sensor's own seeded history |
| Simulator.SeedReadingsLookup | src/data/iotSimulator.ts:155-166 | with unique ids each sensor finds its own seeded history under its id |
| Simulator.InitialSensors | src/data/iotSimulator.ts:133-152 | one sensor per site, in table order |
| Simulator.InitialSensorsShape | src/data/iotSimulator.ts:133-152 | twelve sensors, ids `sensor-001` onwards, pairwise distinct |
| Simulator.Initialize | src/data/iotSimulator.ts:129-167 | the constructor: twelve sensors from the site table and a seeded history under each id; its shape is stated by `Simulator.InitializeShape` |
| Simulator.InitializeShape | src/data/iotSimulator.ts:122-167 | a fresh simulator has twelve uniquely identified sensors, a history of 100 chronological readings per sensor id, no alerts and is not running |
| Simulator.SensorAfterTick | src/data/iotSimulator.ts:238-264 | only reading, status and battery change; the status stays unless the change draw is below 0.001, and then becomes offline when the second draw exceeds 0.7 and maintenance otherwise; the battery drops by one, not below 0, exactly when the drain draw is below 0.01, and stays otherwise |
| Simulator.UpdateSensorAt | src/data/iotSimulator.ts:237-265 | the sensor list keeps its length |
| Simulator.UpdateFrom | src/data/iotSimulator.ts:237-266 | the `forEach` over the sensors from a position on; its effect is stated by `Simulator.TickSensors`, `Simulator.TickAppendsHistories` and `Simulator.TickAlertsExact` |
| Simulator.UpdateReadings | src/data/iotSimulator.ts:236-267 | one tick, the fold from the first sensor; stated by the same lemmas and by `Simulator.TickAppendsAlerts` |
| Simulator.HistoryOf | src/data/iotSimulator.ts:243 | `readings.get(id)`, else `[]`: the stored history, or empty for an unknown id (an empty stored array is truthy and returned as is) |
| Simulator.TickSensors | src/data/iotSimulator.ts:236-267 | a tick changes exactly the online, active sensors, as `SensorAfterTick` says, and leaves the flag and timer alone |
| Simulator.UpdateSensorAtFrame | src/data/iotSimulator.ts:237-265 | one sensor's update keeps every id, every other sensor and every other history |
| Simulator.TickUntouchedHistories | src/data/iotSimulator.ts:236-267 | histories of keys no updated sensor carries are unchanged, present or absent |
| Simulator.TickAppendsHistories | src/data/iotSimulator.ts:243-251 | with unique ids, each updated sensor's history gets exactly its new reading appended |
| Simulator.TickKeepsCap | src/data/iotSimulator.ts:246-249 | no history exceeds 1000 readings after a tick |
| Simulator.TickLastReadingIsNewest | src/data/iotSimulator.ts:239-251 | after a tick an updated sensor's last reading is the newest entry of its history |
| Simulator.TickAlertsExact | src/data/iotSimulator.ts:254 | a tick appends exactly the alerts its updated sensors raise, in sensor order |
| Simulator.FiredProvenance | src/data/iotSimulator.ts:269-326 | at most three alerts per sensor, each well formed, unresolved and for an updated sensor |
| Simulator.FiredIncludes | src/data/iotSimulator.ts:254 | every alert an updated sensor raises is among the alerts of the tick |
| Simulator.TickAppendsAlerts | src/data/iotSimulator.ts:325 | the old alert list stays a prefix; the new alerts are well formed, unresolved and for updated sensors |
| Simulator.LowBatteryFires | src/data/iotSimulator.ts:311-323 | a battery below 20 raises a battery alert for the sensor, critical iff below 10 |
| Simulator.FiredBatteryAlert | src/data/iotSimulator.ts:311-323 | among the alerts a tick raises there is a battery alert for every updated sensor whose battery is below 20, critical iff below 10 |
| Simulator.TickLowBatteryAlert | src/data/iotSimulator.ts:254 | a tick updating a sensor whose battery is below 20 records a battery alert for it, judged on the battery before any drain |
| Simulator.GetSensors | src/data/iotSimulator.ts:329-331 | the sensors, element for element |
| Simulator.GetSensor | src/data/iotSimulator.ts:333-335 | nothing iff no sensor has the id, otherwise the first listed sensor with that id |
| Simulator.GetSensorHistory | src/data/iotSimulator.ts:337-398 | nothing iff the sensor is unknown or the window is empty; otherwise the summary of `slice(-limit)` for that sensor: the window, its rounded averages and its trends as `History.Summarize` states them |
| Simulator.HistoryQueryWindow | src/data/iotSimulator.ts:337-347 | for limit >= 1, a result iff the sensor exists and has readings, holding the last min(limit, n) readings |
| Simulator.HistoryQueryZeroLimit | src/data/iotSimulator.ts:345 | limit 0 returns the whole history |
| Simulator.ActiveAlerts | src/data/iotSimulator.ts:401-406 | unresolved alerts of the simulator, newest first: exactly min(limit, unresolved count) of them for limit >= 0 (count + limit, at least 0, for a negative limit), a prefix of the sorted unresolved alerts |
| Simulator.Resolve | src/data/iotSimulator.ts:408-415 | true iff some alert has the id; then the first alert with the id is marked resolved and nothing else changes; only the alert list changes, and not at all when the id is unknown |
| Simulator.StartSimulation | src/data/iotSimulator.ts:417-424 | afterwards running; only the flag and timer change; an already running simulator keeps its timer |
| Simulator.StopSimulation | src/data/iotSimulator.ts:426-432 | afterwards not running and no timer; sensors, histories and alerts untouched |
| Simulator.LifecycleLaws | src/data/iotSimulator.ts:417-432 | starting twice is starting once; stopping twice is stopping once; no tick fires after a stop |
| Simulator.TimerFires | src/data/iotSimulator.ts:421-423 | one firing of the interval runs a tick while the timer is set; `Simulator.LifecycleLaws` states that none runs after a stop |
| Simulator.SensorsWithStatus | src/data/iotSimulator.ts:436-444 | only sensors of the list with that status, and every listed sensor with that status |
| Simulator.SensorsWithStatusCounts | src/data/iotSimulator.ts:436-444 | a sensor with the status is counted as often as it occurs in the list, any other sensor never |
| Simulator.StatusCountsPartition | src/data/iotSimulator.ts:435-444 | the four status counts add up to the number of sensors |
| Simulator.TotalReadingsWithout | src/data/iotSimulator.ts:467-470 | the reading total is one history's length plus the total of the rest, whichever key is taken |
| Simulator.DataPoints | src/data/iotSimulator.ts:467-470 | the reduce over the map's values yields the total number of stored readings |
| Simulator.OnlineMean | src/data/iotSimulator.ts:446-455 | an average exists exactly when some sensor is online |
| Simulator.GetSystemStats | src/data/iotSimulator.ts:434-472 | the status counts, counts summing to at most the total, active alerts = min(50, unresolved) <= 50, data points = stored readings, averages present iff a sensor is online |
| Dashboard.FilterSensors | src/hooks/useIoTSensors.ts:137-156 | every kept sensor matches region, status and inactive switch and is listed; every matching listed sensor is kept |
| Dashboard.Matches | src/hooks/useIoTSensors.ts:140-154 | a sensor passes when the region filter is `all` or equal, the status filter is `all` or equal, and inactive sensors are shown or it is active; its effect is stated by `Dashboard.FilterSensors` and `Dashboard.FilterKeepsAll` |
| Dashboard.FilterConcat | src/hooks/useIoTSensors.ts:138 | filtering distributes over concatenation, so kept sensors stay in their original order |
| Dashboard.FilterCounts | src/hooks/useIoTSensors.ts:138-155 | a matching sensor is kept as often as it occurs, a non-matching one never |
| Dashboard.FilterKeepsAll | src/hooks/useIoTSensors.ts:137-156 | the filter returns the whole list iff every sensor matches |
| Dashboard.DefaultFilterShowsAll | src/hooks/useIoTSensors.ts:63-67 | the starting filter shows every sensor |
| Dashboard.FilterIdempotent | src/hooks/useIoTSensors.ts:137-156 | filtering twice is filtering once |
| Dashboard.SelectedSensor | src/hooks/useIoTSensors.ts:130-134 | a sensor iff a non-empty id is selected and listed; then the first listed sensor with that id |
| Dashboard.SelectListedSensor | src/hooks/useIoTSensors.ts:130-134 | with unique ids, selecting a listed sensor's id yields that sensor |
| Dashboard.SelectSensor | src/hooks/useIoTSensors.ts:159-168 | the selection is stored; a history only for a selected, known sensor, holding its last min(100, n) readings with the averages and trends `History.Summarize` states, and one whenever that sensor has readings |
| Dashboard.DropAlert | src/hooks/useIoTSensors.ts:177 | the kept alerts are listed and lack the id; every listed alert without the id is kept |
| Dashboard.DropAlertCounts | src/hooks/useIoTSensors.ts:177 | removes exactly the alerts with the id: every other alert keeps its multiplicity |
| Dashboard.DropAlertConcat | src/hooks/useIoTSensors.ts:177 | the kept alerts stay in their listed order |
| Dashboard.ResolveFromPanel | src/hooks/useIoTSensors.ts:174-179 | the simulator's alerts change as `AlertEngine.ResolveAlert` says and nothing else of it; the panel drops the id iff the simulator knew it, and nothing changes otherwise |
| Dashboard.ResolveKeepsPanelConsistent | src/hooks/useIoTSensors.ts:174-179 | if the panel lists only unresolved simulator alerts, it still does after resolving any id |
| Dashboard.MergeFilterLaws | src/hooks/useIoTSensors.ts:181-183 | an empty patch changes nothing; a patch applied twice acts once; two patches act as their overlay; a full patch fixes the filter |
| Dashboard.MergeFilter | src/hooks/useIoTSensors.ts:182 | `{ ...prev, ...patch }`: each field the patch gives overrides, every other field is kept; its laws are `Dashboard.MergeFilterLaws` |
| Dashboard.SetFilter | src/hooks/useIoTSensors.ts:181-183 | only the filter setting changes |
| Dashboard.ToggleAutoUpdate | src/hooks/useIoTSensors.ts:185-187 | only the switch changes, to its negation |
| Dashboard.ToggleLaws | src/hooks/useIoTSensors.ts:185-187 | toggling twice restores the settings and commutes with setting the filter |

## Left out

- Alert `message` strings are not modelled; they carry no state the other operations read.
- Floating point: arithmetic is exact over the reals. `Math.round` is `floor(x + 0.5)`, with no IEEE rounding of the products and no `-0`.
- Dates outside the range of `Date` are not modelled; a time is an unbounded integer.
- `setInterval`/`clearInterval` are not modelled. The timer is a field holding the interval, and `TimerFires` stands for one firing.
- `Simulator.GetSystemStats`: the averages are stated to exist exactly when a sensor is online. Their values (rounded means of the online sensors' last readings) are computed but stated no further.
- `Simulator.UpdateSensorAt`: its contract states only the length. What the update does is stated by `TickSensors`, `TickAppendsHistories` and `TickAlertsExact`.
- `Simulator.MakeSensor`: the name and firmware strings are built but not stated in the contract.
- The probabilities of the draws are not modelled; a draw is any value, and the contracts say what follows from its value.
- `AlertEngine.CheckAlerts`: one clock value serves a sensor's whole update, so its reading, its alert ids and its alert timestamps share one time. The code reads the clock separately for the reading (src/data/iotSimulator.ts:171), for each id (lines 275, 295, 313) and for each timestamp (lines 285, 303, 318). There, the alerts of one update can carry increasing timestamps, and `getAlerts` may then list a later rule's alert before an earlier one. In the model they tie and keep the order temperature, humidity, battery.
- `Simulator.Initialize`: one clock value serves the whole construction, while the code reads `Date.now()` anew for each sensor's dates and each seeded reading (src/data/iotSimulator.ts:146, 149, 161) and `new Date()` for each first reading (line 171).
- `Simulator.SeedHistoryShape`: "exactly a minute apart, the newest stamped now" holds for the frozen construction clock; with a clock that advances during the loop the gaps can exceed a minute.
- Object identity is not modelled: `getSensors` and `getAlerts` return new arrays of the live sensor and alert objects, which later ticks and `resolveAlert` mutate in place (src/data/iotSimulator.ts:240, 258, 263, 411), so data the hook holds can change between loads. The model returns value snapshots.
- React plumbing in the hook is not modelled: `loadData`, its latency and error handling, effects, the refresh timer, `isLoading`/`isConnected`/`lastUpdate`, `setUpdateInterval` (a plain setter) and `refreshData`.
- `Dashboard.SetFilter`: a patch field given as an explicit `undefined` overwrites the previous value in `{ ...prev, ...patch }`. The model treats it as absent.
- Record lookups by a key such as `constructor` or `toString` would reach `Object.prototype`; the model treats every key not in the table as missing.
- The Express backend (backend/server.js) and the weather-search screens are not part of this model.

=== FILE: alerts.dfy ===
/**
 The alert engine of the simulator (src/data/iotSimulator.ts): the threshold
 rules `checkAlerts` applies to a fresh reading and the sensor's battery, the
 active-alert listing `getAlerts` (filter, newest first, truncate) and
 `resolveAlert`.
 */
module AlertEngine {
  import opened Js
  import opened Types

  const DefaultAlertLimit: int := 50

  /** `alert-${Date.now()}-<suffix>`. */
  function AlertId(now: int, suffix: string): string {
    "alert-" + IntToString(now) + "-" + suffix
  }

  /** The id reads back: the `alert-` prefix, the printed clock value, a dash, the rule's suffix. */
  lemma AlertIdParts(now: int, suffix: string)
    ensures var id := AlertId(now, suffix);
      && |id| >= 8 + |suffix| && id[..6] == "alert-"
      && id[|id| - |suffix|..] == suffix && id[|id| - |suffix| - 1] == '-'
      && id[6..|id| - |suffix| - 1] == IntToString(now)
  {
    var stamp := IntToString(now);
    var id := "alert-" + stamp + "-" + suffix;
    assert id[6..|id| - |suffix| - 1] == stamp;
  }

  /**
   An id names its clock value and its rule: alerts of different rules never
   share an id, and alerts of one rule share one only at the same clock value.
   */
  lemma AlertIdDetermines(now1: int, now2: int, kind1: AlertType, kind2: AlertType)
    requires RuleRank(kind1) < 3 && RuleRank(kind2) < 3
    ensures AlertId(now1, RuleTag(kind1)) == AlertId(now2, RuleTag(kind2)) <==> now1 == now2 && kind1 == kind2
  {
    var a, b := AlertId(now1, RuleTag(kind1)), AlertId(now2, RuleTag(kind2));
    AlertIdParts(now1, RuleTag(kind1));
    AlertIdParts(now2, RuleTag(kind2));
    if a == b {
      var t1, t2 := RuleTag(kind1), RuleTag(kind2);
      assert a[|a| - 1] == t1[|t1| - 1] && b[|b| - 1] == t2[|t2| - 1];
      assert kind1 == kind2;
      IntToStringInjective(now1, now2);
    }
  }

  /**
   The threshold table, stated independently of how the rules are evaluated:
   an alert's value lies beyond the threshold it records, on the side that
   threshold names, and its severity is critical exactly when the value is
   beyond the outer band.
   */
  predicate WellFormed(a: Alert) {
    match a.kind
    case TemperatureAlert =>
      && ((a.threshold == 35 && a.value > 35.0) || (a.threshold == 0 && a.value < 0.0))
      && (a.severity == Critical <==> a.value > 40.0 || a.value < -5.0)
      && (a.severity == Critical || a.severity == High)
    case HumidityAlert =>
      && ((a.threshold == 90 && a.value > 90.0) || (a.threshold == 10 && a.value < 10.0))
      && (a.severity == Critical <==> a.value > 95.0 || a.value < 5.0)
      && (a.severity == Critical || a.severity == Medium)
    case BatteryAlert =>
      && a.threshold == 20 && a.value < 20.0
      && (a.severity == Critical <==> a.value < 10.0)
      && (a.severity == Critical || a.severity == Medium)
    case _ => false
  }

  /** The alert a temperature outside [0, 35] raises. */
  function TemperatureRule(sensorId: string, reading: SensorReading, now: int): (a: Option<Alert>)
    ensures a.Some? <==> reading.temperature > 35.0 || reading.temperature < 0.0
    ensures a.Some? ==> (&& a.value.kind == TemperatureAlert && WellFormed(a.value)
      && a.value.value == reading.temperature
      && a.value.sensorId == sensorId && a.value.timestamp == now && !a.value.isResolved
      && a.value.id == AlertId(now, "temp"))
  {
    var t := reading.temperature;
    if t > 35.0 || t < 0.0 then
      Some(Alert(
        AlertId(now, "temp"), sensorId, TemperatureAlert,
        if t > 40.0 || t < -5.0 then Critical else High,
        now, false,
        if t > 35.0 then 35 else 0,
        t))
    else None
  }

  /** The alert a humidity outside [10, 90] raises. */
  function HumidityRule(sensorId: string, reading: SensorReading, now: int): (a: Option<Alert>)
    ensures a.Some? <==> reading.humidity > 90 || reading.humidity < 10
    ensures a.Some? ==> (&& a.value.kind == HumidityAlert && WellFormed(a.value)
      && a.value.value == reading.humidity as real
      && a.value.sensorId == sensorId && a.value.timestamp == now && !a.value.isResolved
      && a.value.id == AlertId(now, "hum"))
  {
    var h := reading.humidity;
    if h > 90 || h < 10 then
      Some(Alert(
        AlertId(now, "hum"), sensorId, HumidityAlert,
        if h > 95 || h < 5 then Critical else Medium,
        now, false,
        if h > 90 then 90 else 10,
        h as real))
    else None
  }

  /** The alert a battery level below 20 raises. */
  function BatteryRule(sensorId: string, batteryLevel: int, now: int): (a: Option<Alert>)
    ensures a.Some? <==> batteryLevel < 20
    ensures a.Some? ==> (&& a.value.kind == BatteryAlert && WellFormed(a.value)
      && a.value.value == batteryLevel as real
      && a.value.sensorId == sensorId && a.value.timestamp == now && !a.value.isResolved
      && a.value.id == AlertId(now, "bat"))
  {
    if batteryLevel < 20 then
      Some(Alert(
        AlertId(now, "bat"), sensorId, BatteryAlert,
        if batteryLevel < 10 then Critical else Medium,
        now, false, 20, batteryLevel as real))
    else None
  }

  function AsSeq(a: Option<Alert>): (s: seq<Alert>)
    ensures |s| <= 1
    ensures a.Some? <==> |s| == 1
    ensures a.Some? ==> s[0] == a.value
  {
    if a.Some? then [a.value] else []
  }

  /** The order in which `checkAlerts` evaluates its rules. */
  function RuleRank(kind: AlertType): nat {
    match kind
    case TemperatureAlert => 0
    case HumidityAlert => 1
    case BatteryAlert => 2
    case _ => 3
  }

  /** The suffix each rule puts in the ids of its alerts. */
  function RuleTag(kind: AlertType): string {
    match kind
    case TemperatureAlert => "temp"
    case HumidityAlert => "hum"
    case BatteryAlert => "bat"
    case _ => ""
  }

  function HasKind(fired: seq<Alert>, kind: AlertType): bool {
    exists i :: 0 <= i < |fired| && fired[i].kind == kind
  }

  /**
   `checkAlerts`: the temperature, humidity and battery alerts, in that order,
   each raised exactly when its value crosses its threshold.
   */
  function CheckAlerts(sensorId: string, batteryLevel: int, reading: SensorReading, now: int): (fired: seq<Alert>)
    ensures |fired| <= 3
    ensures forall i :: 0 <= i < |fired| ==>
      && WellFormed(fired[i]) && !fired[i].isResolved
      && fired[i].sensorId == sensorId && fired[i].timestamp == now
    ensures HasKind(fired, TemperatureAlert) <==> reading.temperature > 35.0 || reading.temperature < 0.0
    ensures HasKind(fired, HumidityAlert) <==> reading.humidity > 90 || reading.humidity < 10
    ensures HasKind(fired, BatteryAlert) <==> batteryLevel < 20
    ensures forall i :: 0 <= i < |fired| && fired[i].kind == TemperatureAlert ==> fired[i].value == reading.temperature
    ensures forall i :: 0 <= i < |fired| && fired[i].kind == HumidityAlert ==> fired[i].value == reading.humidity as real
    ensures forall i :: 0 <= i < |fired| && fired[i].kind == BatteryAlert ==> fired[i].value == batteryLevel as real
    ensures forall i, j :: 0 <= i < j < |fired| ==> RuleRank(fired[i].kind) < RuleRank(fired[j].kind)
    ensures forall i :: 0 <= i < |fired| ==> fired[i].id == AlertId(now, RuleTag(fired[i].kind))
  {
    var t := TemperatureRule(sensorId, reading, now);
    var h := HumidityRule(sensorId, reading, now);
    var b := BatteryRule(sensorId, batteryLevel, now);
    var fired := AsSeq(t) + AsSeq(h) + AsSeq(b);
    RuleSlots(t, h, b);
    assert t.Some? ==> fired[0] == t.value;
    assert h.Some? ==> fired[|AsSeq(t)|] == h.value;
    assert b.Some? ==> fired[|fired| - 1] == b.value;
    fired
  }

  /** Where each rule's alert sits in the concatenation of the three rules' results. */
  lemma RuleSlots(t: Option<Alert>, h: Option<Alert>, b: Option<Alert>)
    ensures var f := AsSeq(t) + AsSeq(h) + AsSeq(b);
      forall i :: 0 <= i < |f| ==>
        || (t.Some? && i == 0 && f[i] == t.value)
        || (h.Some? && i == |AsSeq(t)| && f[i] == h.value)
        || (b.Some? && i == |AsSeq(t)| + |AsSeq(h)| && f[i] == b.value)
  {
  }

  /**
   Alert ids carry only the clock value and the rule: two sensors that cross
   the same rule in the same millisecond raise alerts with the same id.
   */
  lemma SameMillisecondIdsCollide(first: string, second: string, reading: SensorReading, now: int)
    requires reading.temperature > 35.0
    ensures var a := TemperatureRule(first, reading, now).value;
      var b := TemperatureRule(second, reading, now).value;
      a.id == b.id && a.sensorId == first && b.sensorId == second
  {
  }

  /**
   A reading of 36 degrees with normal humidity and battery raises exactly one
   alert: a high-severity temperature alert at threshold 35; 41 degrees makes it critical.
   */
  lemma HotReadingAlerts(sensorId: string, reading: SensorReading, batteryLevel: int, now: int)
    requires 10 <= reading.humidity <= 90 && 20 <= batteryLevel
    requires reading.temperature == 36.0 || reading.temperature == 41.0
    ensures |CheckAlerts(sensorId, batteryLevel, reading, now)| == 1
    ensures var a := CheckAlerts(sensorId, batteryLevel, reading, now)[0];
      && a.kind == TemperatureAlert && a.threshold == 35
      && (a.severity == High <==> reading.temperature == 36.0)
  {
    var fired := CheckAlerts(sensorId, batteryLevel, reading, now);
    assert !HasKind(fired, HumidityAlert) && !HasKind(fired, BatteryAlert);
    assert HasKind(fired, TemperatureAlert);
  }

  function Unresolved(alerts: seq<Alert>): (r: seq<Alert>)
    ensures |r| <= |alerts|
    ensures forall a :: a in r <==> a in alerts && !a.isResolved
  {
    if |alerts| == 0 then []
    else (if alerts[0].isResolved then [] else [alerts[0]]) + Unresolved(alerts[1..])
  }

  /** Every unresolved alert is kept as often as it occurs; resolved ones never are. */
  lemma {:induction false} UnresolvedCounts(alerts: seq<Alert>, a: Alert)
    ensures multiset(Unresolved(alerts))[a] == if a.isResolved then 0 else multiset(alerts)[a]
    decreases |alerts|
  {
    if |alerts| > 0 {
      var x := alerts[0];
      var head := if x.isResolved then [] else [x];
      var rest := Unresolved(alerts[1..]);
      assert Unresolved(alerts) == head + rest;
      assert alerts == [x] + alerts[1..];
      UnresolvedCounts(alerts[1..], a);
      CountConcat(head, rest, a);
      CountConcat([x], alerts[1..], a);
    }
  }

  /** The unresolved alerts keep the order of the list. */
  lemma {:induction false} UnresolvedConcat(a: seq<Alert>, b: seq<Alert>)
    ensures Unresolved(a + b) == Unresolved(a) + Unresolved(b)
    decreases |a|
  {
    if |a| > 0 {
      assert (a + b)[0] == a[0];
      assert (a + b)[1..] == a[1..] + b;
      UnresolvedConcat(a[1..], b);
    } else {
      assert a + b == b;
    }
  }

  predicate NewestFirst(s: seq<Alert>) {
    forall i, j :: 0 <= i < j < |s| ==> s[i].timestamp >= s[j].timestamp
  }

  /** Put `x` before the first alert no newer than it. */
  function Insert(x: Alert, s: seq<Alert>): (r: seq<Alert>)
    requires NewestFirst(s)
    ensures NewestFirst(r)
    ensures |r| == |s| + 1
    ensures multiset(r) == multiset(s) + multiset{x}
  {
    if |s| == 0 || s[0].timestamp <= x.timestamp then [x] + s
    else
      var rest := Insert(x, s[1..]);
      InsertBehind(x, s, rest);
      [s[0]] + rest
  }

  lemma InsertBehind(x: Alert, s: seq<Alert>, rest: seq<Alert>)
    requires NewestFirst(s) && 0 < |s| && x.timestamp < s[0].timestamp
    requires NewestFirst(rest) && multiset(rest) == multiset(s[1..]) + multiset{x}
    ensures NewestFirst([s[0]] + rest)
    ensures multiset([s[0]] + rest) == multiset(s) + multiset{x}
  {
    forall i | 0 <= i < |rest|
      ensures rest[i].timestamp <= s[0].timestamp
    {
      assert rest[i] in multiset(rest);
    }
    assert s == [s[0]] + s[1..];
  }

  /** A stable sort, newest first: what `sort((a, b) => b.timestamp - a.timestamp)` returns. */
  function SortNewestFirst(s: seq<Alert>): (r: seq<Alert>)
    ensures NewestFirst(r)
    ensures |r| == |s|
    ensures multiset(r) == multiset(s)
  {
    if |s| == 0 then []
    else
      assert s == [s[0]] + s[1..];
      Insert(s[0], SortNewestFirst(s[1..]))
  }

  /** The alerts stamped `t`, in order. */
  function StampedAt(s: seq<Alert>, t: int): seq<Alert> {
    if |s| == 0 then []
    else (if s[0].timestamp == t then [s[0]] else []) + StampedAt(s[1..], t)
  }

  lemma {:induction false} InsertStable(x: Alert, s: seq<Alert>, t: int)
    requires NewestFirst(s)
    ensures StampedAt(Insert(x, s), t) == (if x.timestamp == t then [x] else []) + StampedAt(s, t)
    decreases |s|
  {
    if |s| == 0 || s[0].timestamp <= x.timestamp {
      var r := [x] + s;
      assert Insert(x, s) == r;
      assert r[0] == x && r[1..] == s;
    } else {
      var rest := Insert(x, s[1..]);
      var r := [s[0]] + rest;
      assert Insert(x, s) == r;
      assert r[0] == s[0] && r[1..] == rest;
      InsertStable(x, s[1..], t);
      assert StampedAt(r, t) == (if s[0].timestamp == t then [s[0]] else []) + StampedAt(rest, t);
      if x.timestamp == t {
        assert s[0].timestamp != t;
      }
    }
  }

  /**
   The sort is stable: alerts with the same timestamp keep their original
   relative order. Together with the ordering and permutation guarantees this
   pins the result down uniquely.
   */
  lemma {:induction false} SortIsStable(s: seq<Alert>, t: int)
    ensures StampedAt(SortNewestFirst(s), t) == StampedAt(s, t)
    decreases |s|
  {
    if |s| > 0 {
      SortIsStable(s[1..], t);
      InsertStable(s[0], SortNewestFirst(s[1..]), t);
    }
  }

  lemma SortedUnresolvedMembers(alerts: seq<Alert>)
    ensures forall i :: 0 <= i < |SortNewestFirst(Unresolved(alerts))| ==>
      var a := SortNewestFirst(Unresolved(alerts))[i]; !a.isResolved && a in alerts
  {
    var unresolved := Unresolved(alerts);
    var sorted := SortNewestFirst(unresolved);
    forall i | 0 <= i < |sorted|
      ensures !sorted[i].isResolved && sorted[i] in alerts
    {
      assert sorted[i] in multiset(sorted);
      assert sorted[i] in multiset(unresolved);
      assert sorted[i] in unresolved;
    }
  }

  lemma PrefixNewestFirst(s: seq<Alert>, n: nat)
    requires NewestFirst(s) && n <= |s|
    ensures NewestFirst(s[..n])
  {
  }

  /** `getAlerts(limit)`: unresolved alerts, newest first, at most `limit` of them. */
  function GetAlerts(alerts: seq<Alert>, limit: int): (r: seq<Alert>)
    ensures forall i :: 0 <= i < |r| ==> !r[i].isResolved && r[i] in alerts
    ensures NewestFirst(r)
    ensures 0 <= limit ==> |r| == Min(limit, |Unresolved(alerts)|)
    ensures limit < 0 ==> |r| == Max(|Unresolved(alerts)| + limit, 0)
    ensures r == SortNewestFirst(Unresolved(alerts))[..|r|]
  {
    var unresolved := Unresolved(alerts);
    var sorted := SortNewestFirst(unresolved);
    var n := RelativeIndex(limit, |sorted|);
    SliceFromStart(sorted, limit);
    PrefixNewestFirst(sorted, n);
    SortedUnresolvedMembers(alerts);
    Slice(sorted, 0, limit)
  }

  /** With a limit covering them all, the listing holds every unresolved alert, with multiplicity. */
  lemma GetAlertsAll(alerts: seq<Alert>, limit: int)
    requires |Unresolved(alerts)| <= limit
    ensures multiset(GetAlerts(alerts, limit)) == multiset(Unresolved(alerts))
  {
    var sorted := SortNewestFirst(Unresolved(alerts));
    var r := GetAlerts(alerts, limit);
    assert |r| == |sorted|;
    assert r == sorted[..|sorted|] == sorted;
  }

  datatype Resolution = Resolution(found: bool, alerts: seq<Alert>)

  /**
   `resolveAlert(id)`: marks the first alert with that id resolved (even one
   already resolved) and reports whether there was one.
   */
  function ResolveAlert(alerts: seq<Alert>, id: string): (r: Resolution)
    ensures r.found <==> exists j :: 0 <= j < |alerts| && alerts[j].id == id
    ensures !r.found ==> r.alerts == alerts
    ensures |r.alerts| == |alerts|
    ensures r.found ==> exists k :: (&& 0 <= k < |alerts| && alerts[k].id == id
      && (forall j :: 0 <= j < k ==> alerts[j].id != id)
      && r.alerts[k] == alerts[k].(isResolved := true)
      && forall j :: 0 <= j < |alerts| && j != k ==> r.alerts[j] == alerts[j])
  {
    match FirstWithKey(alerts, AlertKey, id)
    case None => Resolution(false, alerts)
    case Some(k) => Resolution(true, alerts[k := alerts[k].(isResolved := true)])
  }

  lemma {:induction false} ResolvingOneCount(alerts: seq<Alert>, k: nat)
    requires k < |alerts|
    ensures |Unresolved(alerts[k := alerts[k].(isResolved := true)])|
      == |Unresolved(alerts)| - (if alerts[k].isResolved then 0 else 1)
    decreases k
  {
    var updated := alerts[k := alerts[k].(isResolved := true)];
    if k > 0 {
      ResolvingOneCount(alerts[1..], k - 1);
      assert updated[1..] == alerts[1..][k - 1 := alerts[k].(isResolved := true)];
    }
  }

  /**
   Resolving shrinks the active count by one exactly when the first alert with
   that id was still unresolved; an unknown id leaves the count as it was.
   */
  lemma ResolveActiveCount(alerts: seq<Alert>, id: string)
    ensures var r := ResolveAlert(alerts, id);
      && (!r.found ==> |Unresolved(r.alerts)| == |Unresolved(alerts)|)
      && (r.found && !alerts[FirstWithKey(alerts, AlertKey, id).value].isResolved ==>
            |Unresolved(r.alerts)| == |Unresolved(alerts)| - 1)
      && (r.found && alerts[FirstWithKey(alerts, AlertKey, id).value].isResolved ==>
            |Unresolved(r.alerts)| == |Unresolved(alerts)|)
  {
    var k := FirstWithKey(alerts, AlertKey, id);
    if k.Some? {
      ResolvingOneCount(alerts, k.value);
    }
  }

  /** When at most one alert carries the id, resolving it takes it off the active listing. */
  lemma ResolveUniqueLeavesListing(alerts: seq<Alert>, id: string, limit: int)
    requires forall i, j :: 0 <= i < j < |alerts| ==> alerts[i].id == id ==> alerts[j].id != id
    ensures forall a :: a in GetAlerts(ResolveAlert(alerts, id).alerts, limit) ==> a.id != id
  {
    var r := ResolveAlert(alerts, id);
    forall a | a in GetAlerts(r.alerts, limit)
      ensures a.id != id
    {
      assert a in r.alerts && !a.isResolved;
      var j :| 0 <= j < |r.alerts| && r.alerts[j] == a;
    }
  }
}

=== FILE: dashboard.dfy ===
/**
 The pure parts of the dashboard hook `useIoTSensors` (src/hooks/useIoTSensors.ts):
 the sensor filter, the selected-sensor lookup, selecting a sensor, resolving an
 alert from the alert panel, merging a partial filter and the auto-update switch.
 React state, effects and timers are not modelled; each state update is a
 function from the previous value to the next.
 */
module Dashboard {
  import opened Js
  import opened Types
  import opened Registry
  import opened History
  import opened AlertEngine
  import Simulator

  // ---------------------------------------------------------------------------
  // Filtering

  /** The filter the hook starts with: every region, every status, inactive sensors shown. */
  const DefaultFilter: SensorFilter := SensorFilter(AllRegions, AllStatuses, true)

  /** The predicate of `filteredSensors`: region, then status, then the inactive switch. */
  predicate Matches(f: SensorFilter, s: IoTSensor) {
    && (f.region.AllRegions? || s.location.region == f.region.region)
    && (f.status.AllStatuses? || s.status == f.status.status)
    && (f.showInactive || s.isActive)
  }

  /** `sensors.filter(...)`: the matching sensors, in their original order. */
  function FilterSensors(sensors: seq<IoTSensor>, f: SensorFilter): (r: seq<IoTSensor>)
    ensures |r| <= |sensors|
    ensures forall k :: 0 <= k < |r| ==> Matches(f, r[k]) && r[k] in sensors
    ensures forall j :: 0 <= j < |sensors| && Matches(f, sensors[j]) ==> sensors[j] in r
    decreases |sensors|
  {
    if |sensors| == 0 then []
    else (if Matches(f, sensors[0]) then [sensors[0]] else []) + FilterSensors(sensors[1..], f)
  }

  /** Filtering a concatenation filters each part: the relative order of the kept sensors is their original order. */
  lemma {:induction false} FilterConcat(a: seq<IoTSensor>, b: seq<IoTSensor>, f: SensorFilter)
    ensures FilterSensors(a + b, f) == FilterSensors(a, f) + FilterSensors(b, f)
    decreases |a|
  {
    if |a| > 0 {
      assert (a + b)[0] == a[0];
      assert (a + b)[1..] == a[1..] + b;
      FilterConcat(a[1..], b, f);
    } else {
      assert a + b == b;
    }
  }

  /** A sensor is kept exactly as often as it occurs, when it matches, and never otherwise. */
  lemma {:induction false} FilterCounts(sensors: seq<IoTSensor>, f: SensorFilter, s: IoTSensor)
    ensures multiset(FilterSensors(sensors, f))[s] == if Matches(f, s) then multiset(sensors)[s] else 0
    decreases |sensors|
  {
    if |sensors| > 0 {
      var x := sensors[0];
      var head := if Matches(f, x) then [x] else [];
      var rest := FilterSensors(sensors[1..], f);
      assert FilterSensors(sensors, f) == head + rest;
      assert sensors == [x] + sensors[1..];
      FilterCounts(sensors[1..], f, s);
      CountConcat(head, rest, s);
      CountConcat([x], sensors[1..], s);
    }
  }

  /** The filter keeps everything exactly when every sensor matches. */
  lemma {:induction false} FilterKeepsAll(sensors: seq<IoTSensor>, f: SensorFilter)
    ensures FilterSensors(sensors, f) == sensors <==> forall j :: 0 <= j < |sensors| ==> Matches(f, sensors[j])
    decreases |sensors|
  {
    if |sensors| > 0 {
      FilterKeepsAll(sensors[1..], f);
      if !Matches(f, sensors[0]) {
        assert |FilterSensors(sensors, f)| < |sensors|;
      }
    }
  }

  /** The starting filter shows every sensor. */
  lemma DefaultFilterShowsAll(sensors: seq<IoTSensor>)
    ensures FilterSensors(sensors, DefaultFilter) == sensors
  {
    FilterKeepsAll(sensors, DefaultFilter);
  }

  /** Filtering twice with the same filter is filtering once. */
  lemma FilterIdempotent(sensors: seq<IoTSensor>, f: SensorFilter)
    ensures FilterSensors(FilterSensors(sensors, f), f) == FilterSensors(sensors, f)
  {
    FilterKeepsAll(FilterSensors(sensors, f), f);
  }

  // ---------------------------------------------------------------------------
  // Selection

  /** `selectedSensorId`: `null`, or a string; the empty string counts as no selection. */
  predicate Selects(selectedId: Option<string>) {
    selectedId.Some? && selectedId.value != ""
  }

  /** `selectedSensor`: the sensor with the selected id, or nothing when none is selected or none has that id. */
  function SelectedSensor(sensors: seq<IoTSensor>, selectedId: Option<string>): (r: Option<IoTSensor>)
    ensures r.Some? <==> Selects(selectedId) && exists j :: 0 <= j < |sensors| && sensors[j].id == selectedId.value
    ensures r.Some? ==> r.value.id == selectedId.value
    ensures r.Some? ==> exists j :: (0 <= j < |sensors| && sensors[j] == r.value
      && forall k :: 0 <= k < j ==> sensors[k].id != selectedId.value)
  {
    if Selects(selectedId) then FindSensor(sensors, selectedId.value) else None
  }

  /** With unique ids, selecting a listed sensor's id gives back that sensor. */
  lemma SelectListedSensor(sensors: seq<IoTSensor>, j: nat)
    requires UniqueIds(sensors) && j < |sensors| && sensors[j].id != ""
    ensures SelectedSensor(sensors, Some(sensors[j].id)) == Some(sensors[j])
  {
    FindSensorUnique(sensors, j);
  }

  /**
   `selectSensor(id)`: the new selection and the history shown for it, which
   is `getSensorHistory(id)` with the default limit when an id is given, and
   nothing otherwise.
   */
  function SelectSensor(sim: Simulator.SimulatorState, sensorId: Option<string>): (r: (Option<string>, Option<SensorHistory>))
    ensures r.0 == sensorId
    ensures r.1.Some? ==> Selects(sensorId) && r.1.value.sensorId == sensorId.value
    ensures r.1.Some? ==>
      var h := Simulator.HistoryOf(sim.readings, sensorId.value);
      && Simulator.GetSensor(sim, sensorId.value).Some?
      && r.1.value.readings == h[|h| - Min(DefaultHistoryLimit, |h|)..]
    ensures (&& Selects(sensorId) && Simulator.GetSensor(sim, sensorId.value).Some?
      && |Simulator.HistoryOf(sim.readings, sensorId.value)| > 0) ==> r.1.Some?
    ensures r.1.Some? ==> |r.1.value.readings| > 0 && r.1.value == Summarize(sensorId.value, r.1.value.readings)
  {
    if Selects(sensorId) then
      Simulator.HistoryQueryWindow(sim, sensorId.value, DefaultHistoryLimit);
      (sensorId, Simulator.GetSensorHistory(sim, sensorId.value, DefaultHistoryLimit))
    else (sensorId, None)
  }

  // ---------------------------------------------------------------------------
  // Resolving an alert from the panel

  /** `prev.filter((alert) => alert.id !== alertId)`. */
  function DropAlert(alerts: seq<Alert>, id: string): (r: seq<Alert>)
    ensures |r| <= |alerts|
    ensures forall k :: 0 <= k < |r| ==> r[k].id != id && r[k] in alerts
    ensures forall j :: 0 <= j < |alerts| && alerts[j].id != id ==> alerts[j] in r
    decreases |alerts|
  {
    if |alerts| == 0 then []
    else (if alerts[0].id != id then [alerts[0]] else []) + DropAlert(alerts[1..], id)
  }

  /** The panel filter removes exactly the alerts with the id: every other alert keeps its multiplicity. */
  lemma {:induction false} DropAlertCounts(alerts: seq<Alert>, id: string, a: Alert)
    ensures multiset(DropAlert(alerts, id))[a] == if a.id == id then 0 else multiset(alerts)[a]
    decreases |alerts|
  {
    if |alerts| > 0 {
      var x := alerts[0];
      var head := if x.id != id then [x] else [];
      var rest := DropAlert(alerts[1..], id);
      assert DropAlert(alerts, id) == head + rest;
      assert alerts == [x] + alerts[1..];
      DropAlertCounts(alerts[1..], id, a);
      CountConcat(head, rest, a);
      CountConcat([x], alerts[1..], a);
    }
  }

  /** The kept alerts stay in their listed order. */
  lemma {:induction false} DropAlertConcat(a: seq<Alert>, b: seq<Alert>, id: string)
    ensures DropAlert(a + b, id) == DropAlert(a, id) + DropAlert(b, id)
    decreases |a|
  {
    if |a| > 0 {
      assert (a + b)[0] == a[0];
      assert (a + b)[1..] == a[1..] + b;
      DropAlertConcat(a[1..], b, id);
    } else {
      assert a + b == b;
    }
  }

  /**
   The hook's `resolveAlert(id)`: resolve in the simulator and, when it found
   the alert, drop every alert with that id from the listed ones.
   */
  function ResolveFromPanel(sim: Simulator.SimulatorState, listed: seq<Alert>, id: string): (r: (Simulator.SimulatorState, seq<Alert>))
    ensures r.0 == sim.(alerts := r.0.alerts)
    ensures (exists j :: 0 <= j < |sim.alerts| && sim.alerts[j].id == id) ==>
      r.1 == DropAlert(listed, id)
    ensures (forall j :: 0 <= j < |sim.alerts| ==> sim.alerts[j].id != id) ==>
      r.0 == sim && r.1 == listed
    ensures r.0.alerts == ResolveAlert(sim.alerts, id).alerts
  {
    var (found, sim') := Simulator.Resolve(sim, id);
    (sim', if found then DropAlert(listed, id) else listed)
  }

  /**
   The panel stays consistent with the simulator: if every listed alert is an
   unresolved alert of the simulator, that is still so after resolving any id.
   */
  lemma ResolveKeepsPanelConsistent(sim: Simulator.SimulatorState, listed: seq<Alert>, id: string)
    requires forall k :: 0 <= k < |listed| ==> listed[k] in sim.alerts && !listed[k].isResolved
    ensures var (sim', listed') := ResolveFromPanel(sim, listed, id);
      forall k :: 0 <= k < |listed'| ==> listed'[k] in sim'.alerts && !listed'[k].isResolved
  {
    var (sim', listed') := ResolveFromPanel(sim, listed, id);
    var res := ResolveAlert(sim.alerts, id);
    if res.found {
      assert sim'.alerts == res.alerts;
      var p :| (&& 0 <= p < |sim.alerts| && sim.alerts[p].id == id
        && (forall j :: 0 <= j < p ==> sim.alerts[j].id != id)
        && res.alerts[p] == sim.alerts[p].(isResolved := true)
        && forall j :: 0 <= j < |sim.alerts| && j != p ==> res.alerts[j] == sim.alerts[j]);
      forall k | 0 <= k < |listed'|
        ensures listed'[k] in sim'.alerts && !listed'[k].isResolved
      {
        var a := listed'[k];
        assert a in listed && a.id != id;
        var q :| 0 <= q < |sim.alerts| && sim.alerts[q] == a;
        assert q != p;
        assert sim'.alerts[q] == a;
      }
    }
  }

  // ---------------------------------------------------------------------------
  // Settings

  /** A `Partial<SensorFilter>`: the fields the caller gives. */
  datatype FilterPatch = FilterPatch(region: Option<RegionFilter>, status: Option<StatusFilter>, showInactive: Option<bool>)

  const EmptyPatch: FilterPatch := FilterPatch(None, None, None)

  /** `{ ...prev, ...patch }`: each given field replaces the previous one. */
  function MergeFilter(prev: SensorFilter, patch: FilterPatch): (f: SensorFilter)
    ensures f.region == (if patch.region.Some? then patch.region.value else prev.region)
    ensures f.status == (if patch.status.Some? then patch.status.value else prev.status)
    ensures f.showInactive == (if patch.showInactive.Some? then patch.showInactive.value else prev.showInactive)
  {
    SensorFilter(
      if patch.region.Some? then patch.region.value else prev.region,
      if patch.status.Some? then patch.status.value else prev.status,
      if patch.showInactive.Some? then patch.showInactive.value else prev.showInactive)
  }

  /** The patch `q` laid over the patch `p`: the fields of `q`, and those of `p` that `q` leaves out. */
  function Overlay(p: FilterPatch, q: FilterPatch): FilterPatch {
    FilterPatch(
      if q.region.Some? then q.region else p.region,
      if q.status.Some? then q.status else p.status,
      if q.showInactive.Some? then q.showInactive else p.showInactive)
  }

  /**
   An empty patch changes nothing; applying a patch twice is applying it once;
   two patches in a row are their overlay; a full patch fixes the filter
   whatever it was.
   */
  lemma MergeFilterLaws(prev: SensorFilter, p: FilterPatch, q: FilterPatch)
    ensures MergeFilter(prev, EmptyPatch) == prev
    ensures MergeFilter(MergeFilter(prev, p), p) == MergeFilter(prev, p)
    ensures MergeFilter(MergeFilter(prev, p), q) == MergeFilter(prev, Overlay(p, q))
    ensures p.region.Some? && p.status.Some? && p.showInactive.Some? ==>
      MergeFilter(prev, p) == SensorFilter(p.region.value, p.status.value, p.showInactive.value)
  {
  }

  /** The hook's settings: the filter, the refresh interval in seconds and the auto-update switch. */
  datatype Settings = Settings(filter: SensorFilter, updateInterval: int, isAutoUpdate: bool)

  /** The settings the hook starts with. */
  const InitialSettings: Settings := Settings(DefaultFilter, 10, true)

  /** `setFilter(patch)`: only the filter changes. */
  function SetFilter(st: Settings, patch: FilterPatch): (r: Settings)
    ensures r == st.(filter := r.filter)
    ensures r.filter == MergeFilter(st.filter, patch)
  {
    st.(filter := MergeFilter(st.filter, patch))
  }

  /** `toggleAutoUpdate()`: only the switch changes, to its negation. */
  function ToggleAutoUpdate(st: Settings): (r: Settings)
    ensures r.isAutoUpdate != st.isAutoUpdate
    ensures r == st.(isAutoUpdate := r.isAutoUpdate)
  {
    st.(isAutoUpdate := !st.isAutoUpdate)
  }

  /** Toggling twice restores the settings; toggling commutes with setting the filter. */
  lemma ToggleLaws(st: Settings, patch: FilterPatch)
    ensures ToggleAutoUpdate(ToggleAutoUpdate(st)) == st
    ensures ToggleAutoUpdate(SetFilter(st, patch)) == SetFilter(ToggleAutoUpdate(st), patch)
  {
  }
}

=== FILE: generator.dfy ===
/**
 The reading generator of the simulator (src/data/iotSimulator.ts): a site's
 baseline temperature, humidity and pressure plus uniform variation. Each
 `Math.random()` call is an explicit draw, expected in `[0, 1)`.
 */
module Generator {
  import opened Js
  import opened Types

  /** The seven draws one reading consumes, in the order the generator makes them. */
  datatype ReadingDraws = ReadingDraws(
    temperature: real,
    humidity: real,
    pressure: real,
    windSpeed: real,
    windDirection: real,
    visibility: real,
    uvIndex: real)

  /** A value `Math.random()` can return. */
  predicate IsDraw(r: real) {
    0.0 <= r < 1.0
  }

  predicate ValidReadingDraws(d: ReadingDraws) {
    && IsDraw(d.temperature) && IsDraw(d.humidity) && IsDraw(d.pressure)
    && IsDraw(d.windSpeed) && IsDraw(d.windDirection) && IsDraw(d.visibility) && IsDraw(d.uvIndex)
  }

  const CityTemperatures: map<string, int> := map[
    "Bogotá" := 15, "Medellín" := 22, "Cartagena" := 28,
    "Cali" := 25, "Bucaramanga" := 24, "Manizales" := 18]

  const ZoneHumidities: map<string, int> := map[
    "coastal" := 80, "urban" := 65, "industrial" := 60,
    "natural" := 75, "educational" := 70]

  const CityPressures: map<string, int> := map[
    "Bogotá" := 750, "Medellín" := 860, "Cartagena" := 1013,
    "Cali" := 950, "Bucaramanga" := 920, "Manizales" := 800]

  const DefaultTemperature: int := 20
  const DefaultHumidity: int := 65
  const DefaultPressure: int := 1013

  /** `table[key] || fallback`: a missing key, and equally a stored 0, yields the fallback. */
  function LookupOr(table: map<string, int>, key: string, fallback: int): (v: int)
    ensures key in table && table[key] != 0 ==> v == table[key]
    ensures key !in table || table[key] == 0 ==> v == fallback
  {
    if key in table && table[key] != 0 then table[key] else fallback
  }

  /** Baseline temperature: the city's table entry, 20 for a city not in the table. */
  function BaseTemperature(location: SensorLocation): (t: int)
    ensures location.city in CityTemperatures ==> t == CityTemperatures[location.city]
    ensures location.city !in CityTemperatures ==> t == DefaultTemperature
  {
    LookupOr(CityTemperatures, location.city, DefaultTemperature)
  }

  /** Baseline humidity: the zone's table entry, 65 for a zone not in the table. */
  function BaseHumidity(location: SensorLocation): (h: int)
    ensures location.zone in ZoneHumidities ==> h == ZoneHumidities[location.zone]
    ensures location.zone !in ZoneHumidities ==> h == DefaultHumidity
  {
    LookupOr(ZoneHumidities, location.zone, DefaultHumidity)
  }

  /** Baseline pressure: the city's table entry, 1013 for a city not in the table. */
  function BasePressure(location: SensorLocation): (p: int)
    ensures location.city in CityPressures ==> p == CityPressures[location.city]
    ensures location.city !in CityPressures ==> p == DefaultPressure
  {
    LookupOr(CityPressures, location.city, DefaultPressure)
  }

  /** The bounds every reading from valid draws keeps, whatever the site. */
  predicate InRange(r: SensorReading) {
    && 0 <= r.humidity <= 100
    && 0.0 <= r.windSpeed <= 50.0
    && 0 <= r.windDirection < 360
    && 0 <= r.visibility <= 20000
    && 0 <= r.uvIndex <= 10
  }

  /** A reading for `location` stamped `timestamp`. */
  function GenerateReading(location: SensorLocation, timestamp: int, d: ReadingDraws): (r: SensorReading)
    ensures r.timestamp == timestamp
    ensures ValidReadingDraws(d) ==> InRange(r)
    ensures ValidReadingDraws(d) ==>
      (BaseTemperature(location) - 5) as real <= r.temperature <= (BaseTemperature(location) + 5) as real
    ensures ValidReadingDraws(d) ==>
      Max(0, BaseHumidity(location) - 15) <= r.humidity <= Min(100, BaseHumidity(location) + 15)
    ensures ValidReadingDraws(d) ==>
      BasePressure(location) - 25 <= r.pressure <= BasePressure(location) + 25
  {
    var baseTemp := BaseTemperature(location) as real;
    var tempVariation := (d.temperature - 0.5) * 10.0;
    var baseHumidity := BaseHumidity(location) as real;
    var humidityVariation := (d.humidity - 0.5) * 30.0;
    var basePressure := BasePressure(location) as real;
    var pressureVariation := (d.pressure - 0.5) * 50.0;
    var r := SensorReading(
      timestamp,
      Round((baseTemp + tempVariation) * 10.0) as real / 10.0,
      Max(0, Min(100, Round(baseHumidity + humidityVariation))),
      Round(basePressure + pressureVariation),
      Round(d.windSpeed * 50.0 * 10.0) as real / 10.0,
      Floor(d.windDirection * 360.0),
      Round(d.visibility * 20000.0),
      Floor(d.uvIndex * 11.0));
    if ValidReadingDraws(d) then
      var t := BaseTemperature(location);
      var p := BasePressure(location);
      RoundWithin(baseHumidity + humidityVariation, BaseHumidity(location) - 15, BaseHumidity(location) + 15);
      RoundWithin((baseTemp + tempVariation) * 10.0, t * 10 - 50, t * 10 + 50);
      RoundWithin(basePressure + pressureVariation, p - 25, p + 25);
      RoundWithin(d.windSpeed * 50.0 * 10.0, 0, 500);
      RoundWithin(d.visibility * 20000.0, 0, 20000);
      r
    else
      r
  }
}

=== FILE: history.dfy ===
/**
 The per-sensor reading history of the simulator (src/data/iotSimulator.ts):
 appending with a cap of 1000 readings, the `slice(-limit)` query window, the
 window averages and the rising/falling/stable trend of each metric.
 */
module History {
  import opened Js
  import opened Types

  const MaxHistory: nat := 1000
  const DefaultHistoryLimit: int := 100
  const TrendSpan: nat := 10

  /** Push a reading and, when the history has grown past the cap, shift the oldest one out. */
  function AppendReading(h: seq<SensorReading>, r: SensorReading): (h': seq<SensorReading>)
    ensures |h'| > 0 && h'[|h'| - 1] == r
    ensures |h| < MaxHistory ==> h' == h + [r]
    ensures MaxHistory <= |h| ==> h' == h[1..] + [r]
  {
    var pushed := h + [r];
    if |pushed| > MaxHistory then pushed[1..] else pushed
  }

  /** A history that respects the cap still respects it after an append. */
  lemma AppendKeepsCap(h: seq<SensorReading>, r: SensorReading)
    requires |h| <= MaxHistory
    ensures |AppendReading(h, r)| <= MaxHistory
    ensures |AppendReading(h, r)| == Min(|h| + 1, MaxHistory)
  {
  }

  /** Appending a run of readings one by one, oldest first. */
  function AppendAll(h: seq<SensorReading>, rs: seq<SensorReading>): (h': seq<SensorReading>)
    decreases |rs|
  {
    if |rs| == 0 then h else AppendReading(AppendAll(h, rs[..|rs| - 1]), rs[|rs| - 1])
  }

  /**
   First in, first out: after any run of appends a capped history holds exactly
   the newest `min(total, 1000)` readings, in arrival order.
   */
  lemma {:induction false} AppendAllKeepsNewest(h: seq<SensorReading>, rs: seq<SensorReading>)
    requires |h| <= MaxHistory
    ensures AppendAll(h, rs) == (h + rs)[Max(0, |h| + |rs| - MaxHistory)..]
    decreases |rs|
  {
    if |rs| > 0 {
      var front, last := rs[..|rs| - 1], rs[|rs| - 1];
      AppendAllKeepsNewest(h, front);
      var p := AppendAll(h, front);
      var d := Max(0, |h| + |front| - MaxHistory);
      assert p == (h + front)[d..];
      assert h + rs == (h + front) + [last];
      if |p| < MaxHistory {
        assert AppendAll(h, rs) == p + [last];
        assert (h + front)[d..] + [last] == ((h + front) + [last])[d..];
      } else {
        assert AppendAll(h, rs) == p[1..] + [last];
        assert (h + front)[d..][1..] + [last] == ((h + front) + [last])[d + 1..];
      }
    }
  }

  /** `readings.slice(-limit)`: the query window. */
  function Window(h: seq<SensorReading>, limit: int): (w: seq<SensorReading>)
  {
    Slice(h, -limit, |h|)
  }

  /**
   The window is the last `min(limit, n)` readings for a positive limit; a limit
   of 0 gives the whole history (`slice(-0)` is `slice(0)`), and a negative limit
   drops `-limit` readings from the front.
   */
  lemma WindowShape(h: seq<SensorReading>, limit: int)
    ensures 1 <= limit ==> Window(h, limit) == h[|h| - Min(limit, |h|)..]
    ensures limit == 0 ==> Window(h, limit) == h
    ensures limit < 0 ==> Window(h, limit) == h[Min(-limit, |h|)..]
    ensures |Window(h, limit)| == 0 <==> |h| == 0 || -limit >= |h|
  {
  }

  /** `window.slice(-10)`: the readings the trend calls recent. */
  function Recent(w: seq<SensorReading>): seq<SensorReading> {
    Slice(w, -(TrendSpan as int), |w|)
  }

  /** `window.slice(-20, -10)`: the readings the trend compares them against. */
  function Previous(w: seq<SensorReading>): seq<SensorReading> {
    Slice(w, -2 * TrendSpan, -(TrendSpan as int))
  }

  /**
   The recent part is the last ten readings of the window and the previous part
   the up to ten readings right before them, so the two are adjacent.
   */
  lemma RecentAndPrevious(w: seq<SensorReading>)
    ensures Recent(w) == w[Max(|w| - TrendSpan, 0)..]
    ensures Previous(w) == w[Max(|w| - 2 * TrendSpan, 0)..Max(|w| - TrendSpan, 0)]
    ensures Previous(w) + Recent(w) == w[Max(|w| - 2 * TrendSpan, 0)..]
    ensures |w| >= 2 * TrendSpan ==> |Recent(w)| == TrendSpan && |Previous(w)| == TrendSpan
    ensures |w| <= TrendSpan ==> Previous(w) == []
  {
    assert w[Max(|w| - 2 * TrendSpan, 0)..] ==
      w[Max(|w| - 2 * TrendSpan, 0)..Max(|w| - TrendSpan, 0)] + w[Max(|w| - TrendSpan, 0)..];
  }

  datatype Metric = TemperatureMetric | HumidityMetric | PressureMetric

  function ValueOf(r: SensorReading, m: Metric): real {
    match m
    case TemperatureMetric => r.temperature
    case HumidityMetric => r.humidity as real
    case PressureMetric => r.pressure as real
  }

  function Values(w: seq<SensorReading>, m: Metric): (xs: seq<real>)
    ensures |xs| == |w|
    ensures forall i :: 0 <= i < |w| ==> xs[i] == ValueOf(w[i], m)
  {
    seq(|w|, i requires 0 <= i < |w| => ValueOf(w[i], m))
  }

  function Sum(xs: seq<real>): real
    decreases |xs|
  {
    if |xs| == 0 then 0.0 else Sum(xs[..|xs| - 1]) + xs[|xs| - 1]
  }

  /** The arithmetic mean, or `None` where the dashboard computes 0/0 (NaN). */
  function Mean(xs: seq<real>): (m: Option<real>)
    ensures m.Some? <==> |xs| > 0
  {
    if |xs| == 0 then None else Some(Sum(xs) / |xs| as real)
  }

  lemma {:induction false} SumWithin(xs: seq<real>, lo: real, hi: real)
    requires forall i :: 0 <= i < |xs| ==> lo <= xs[i] <= hi
    ensures |xs| as real * lo <= Sum(xs) <= |xs| as real * hi
    decreases |xs|
  {
    if |xs| > 0 {
      var k := (|xs| - 1) as real;
      SumWithin(xs[..|xs| - 1], lo, hi);
      assert k * lo + lo == |xs| as real * lo;
      assert k * hi + hi == |xs| as real * hi;
    }
  }

  lemma PositiveProduct(a: real, b: real)
    requires 0.0 < a && 0.0 < b
    ensures 0.0 < a * b
  {
  }

  /** The mean of values that all lie in `[lo, hi]` lies in `[lo, hi]`. */
  lemma MeanWithin(xs: seq<real>, lo: real, hi: real)
    requires |xs| > 0
    requires forall i :: 0 <= i < |xs| ==> lo <= xs[i] <= hi
    ensures lo <= Mean(xs).value <= hi
  {
    SumWithin(xs, lo, hi);
    var n := |xs| as real;
    var m := Sum(xs) / n;
    assert m * n == Sum(xs);
    if m < lo {
      PositiveProduct(lo - m, n);
    }
    if m > hi {
      PositiveProduct(m - hi, n);
    }
  }

  /**
   `getTrend`: stable when the two means differ by less than 0.5, otherwise
   rising or falling with the sign of the difference. A missing mean (NaN)
   makes every comparison false, so the result is falling.
   */
  function Classify(recent: Option<real>, previous: Option<real>): (t: Trend)
    ensures t == Stable <==>
      recent.Some? && previous.Some? && -0.5 < recent.value - previous.value < 0.5
    ensures t == Rising <==> recent.Some? && previous.Some? && recent.value - previous.value >= 0.5
    ensures t == Falling <==> recent.None? || previous.None? || recent.value - previous.value <= -0.5
  {
    if recent.None? || previous.None? then Falling
    else
      var diff := recent.value - previous.value;
      var magnitude := if diff < 0.0 then -diff else diff;
      if magnitude < 0.5 then Stable
      else if diff > 0.0 then Rising
      else Falling
  }

  function MetricTrend(w: seq<SensorReading>, m: Metric): Trend {
    Classify(Mean(Values(Recent(w), m)), Mean(Values(Previous(w), m)))
  }

  function TrendOf(h: SensorHistory, m: Metric): Trend {
    match m
    case TemperatureMetric => h.trends.temperature
    case HumidityMetric => h.trends.humidity
    case PressureMetric => h.trends.pressure
  }

  /** The history view of a non-empty window: the window itself, its rounded means and the trends. */
  function Summarize(sensorId: string, w: seq<SensorReading>): (v: SensorHistory)
    requires |w| > 0
    ensures v.sensorId == sensorId && v.readings == w
    ensures -0.05 < v.averages.temperature - Mean(Values(w, TemperatureMetric)).value <= 0.05
    ensures -0.5 < v.averages.humidity as real - Mean(Values(w, HumidityMetric)).value <= 0.5
    ensures -0.5 < v.averages.pressure as real - Mean(Values(w, PressureMetric)).value <= 0.5
  {
    var avgTemp := Mean(Values(w, TemperatureMetric)).value;
    var avgHum := Mean(Values(w, HumidityMetric)).value;
    var avgPress := Mean(Values(w, PressureMetric)).value;
    SensorHistory(
      sensorId,
      w,
      Averages(Round(avgTemp * 10.0) as real / 10.0, Round(avgHum), Round(avgPress)),
      Trends(
        MetricTrend(w, TemperatureMetric),
        MetricTrend(w, HumidityMetric),
        MetricTrend(w, PressureMetric)))
  }

  /**
   Each trend compares the mean of the last ten readings of the window with the
   mean of the up to ten before them: stable within 0.5, otherwise rising or
   falling with the sign of the difference.
   */
  lemma {:induction false} SummarizeTrends(sensorId: string, w: seq<SensorReading>, m: Metric)
    requires |w| > TrendSpan
    ensures var recent := Mean(Values(w[|w| - TrendSpan..], m)).value;
      var previous := Mean(Values(w[Max(|w| - 2 * TrendSpan, 0)..|w| - TrendSpan], m)).value;
      && (TrendOf(Summarize(sensorId, w), m) == Stable <==> -0.5 < recent - previous < 0.5)
      && (TrendOf(Summarize(sensorId, w), m) == Rising <==> recent - previous >= 0.5)
      && (TrendOf(Summarize(sensorId, w), m) == Falling <==> recent - previous <= -0.5)
  {
    RecentAndPrevious(w);
    assert Recent(w) == w[|w| - TrendSpan..];
    assert Previous(w) == w[Max(|w| - 2 * TrendSpan, 0)..|w| - TrendSpan];
  }

  /**
   With ten readings or fewer there is nothing to compare against: the previous
   mean is 0/0 and every trend comes out falling.
   */
  lemma ShortWindowFalls(sensorId: string, w: seq<SensorReading>, m: Metric)
    requires 0 < |w| <= TrendSpan
    ensures TrendOf(Summarize(sensorId, w), m) == Falling
  {
    RecentAndPrevious(w);
  }

  /** Readings whose humidity lies in [0, 100] average to a humidity in [0, 100]. */
  lemma AverageHumidityInRange(sensorId: string, w: seq<SensorReading>)
    requires |w| > 0
    requires forall i :: 0 <= i < |w| ==> 0 <= w[i].humidity <= 100
    ensures 0 <= Summarize(sensorId, w).averages.humidity <= 100
  {
    var xs := Values(w, HumidityMetric);
    MeanWithin(xs, 0.0, 100.0);
    RoundWithin(Mean(xs).value, 0, 100);
  }
}

=== FILE: js.dfy ===
/**
 The few pieces of the JavaScript runtime the simulator relies on, stated over
 Dafny's unbounded integers and exact reals: `Math.floor`, `Math.round`, the
 truncation `new Date(ms)` applies to a time value, `Number.prototype.toString`
 on integers, `String.prototype.padStart`, and the index rules of
 `Array.prototype.slice`.
 */
module Js {

  function Min(a: int, b: int): int { if a <= b then a else b }

  function Max(a: int, b: int): int { if a <= b then b else a }

  /** `Math.floor`: the greatest integer not above `x`. */
  function Floor(x: real): (r: int)
    ensures r as real <= x < r as real + 1.0
  {
    x.Floor
  }

  /** `Math.round`: the nearest integer, a half rounded towards +infinity. */
  function Round(x: real): (r: int)
    ensures x - 0.5 < r as real <= x + 0.5
  {
    (x + 0.5).Floor
  }

  /** Rounding never leaves an integer interval that holds its argument. */
  lemma RoundWithin(x: real, lo: int, hi: int)
    requires lo as real <= x <= hi as real
    ensures lo <= Round(x) <= hi
  {
    var r := Round(x);
    assert (lo - 1) as real < r as real;
    assert r as real < (hi + 1) as real;
  }

  /** The integer part `new Date(ms)` keeps of a time value (truncation towards zero). */
  function Truncate(x: real): (r: int)
    ensures 0.0 <= x ==> r as real <= x < r as real + 1.0
    ensures x < 0.0 ==> r as real - 1.0 < x <= r as real
  {
    if 0.0 <= x then x.Floor else -((-x).Floor)
  }

  /** Truncating a value between two integers gives an integer between them. */
  lemma TruncateWithin(x: real, lo: int, hi: int)
    requires lo as real <= x <= hi as real
    ensures lo <= Truncate(x) <= hi
  {
  }

  predicate IsDigit(c: char) {
    '0' <= c <= '9'
  }

  predicate AllDigits(s: string) {
    forall i :: 0 <= i < |s| ==> IsDigit(s[i])
  }

  function DigitChar(d: int): (c: char)
    requires 0 <= d <= 9
    ensures IsDigit(c)
  {
    (48 + d) as char
  }

  function DigitValue(c: char): (d: int)
    requires IsDigit(c)
    ensures 0 <= d <= 9
  {
    c as int - 48
  }

  /** Decimal text of a natural number, as `n.toString()` writes it. */
  function NatToString(n: nat): (s: string)
    ensures 1 <= |s|
    ensures AllDigits(s)
    ensures 10 <= n ==> 2 <= |s|
    decreases n
  {
    if n < 10 then [DigitChar(n)] else NatToString(n / 10) + [DigitChar(n % 10)]
  }

  /** Decimal text of an integer, with a leading '-' when negative. */
  function IntToString(n: int): (s: string)
    ensures 0 <= n ==> AllDigits(s)
    ensures n < 0 ==> 2 <= |s| && s[0] == '-' && AllDigits(s[1..])
  {
    if n < 0 then "-" + NatToString(-n) else NatToString(n)
  }

  /** The value of a string of decimal digits; leading zeros are allowed. */
  function ParseNat(s: string): (n: nat)
    requires AllDigits(s)
  {
    if |s| == 0 then 0 else ParseNat(s[..|s| - 1]) * 10 + DigitValue(s[|s| - 1])
  }

  /** Reading back the decimal text of `n` gives `n`. */
  lemma {:induction false} ParseNatToString(n: nat)
    ensures ParseNat(NatToString(n)) == n
    decreases n
  {
    var s := NatToString(n);
    if n >= 10 {
      assert s[..|s| - 1] == NatToString(n / 10);
      ParseNatToString(n / 10);
    }
  }

  /** Distinct naturals have distinct decimal texts. */
  lemma NatToStringInjective(a: nat, b: nat)
    requires NatToString(a) == NatToString(b)
    ensures a == b
  {
    ParseNatToString(a);
    ParseNatToString(b);
  }

  predicate AllZeros(z: string) {
    forall i :: 0 <= i < |z| ==> z[i] == '0'
  }

  /** Distinct integers print differently: the sign and the digits give the number back. */
  lemma IntToStringInjective(a: int, b: int)
    requires IntToString(a) == IntToString(b)
    ensures a == b
  {
    var s := IntToString(a);
    if a < 0 && b < 0 {
      assert NatToString(-a) == s[1..] == NatToString(-b);
      NatToStringInjective(-a, -b);
    } else if 0 <= a && 0 <= b {
      NatToStringInjective(a, b);
    } else {
      assert false;
    }
  }

  lemma {:induction false} ParseZeros(z: string)
    requires AllZeros(z)
    ensures ParseNat(z) == 0
    decreases |z|
  {
    if |z| > 0 {
      ParseZeros(z[..|z| - 1]);
    }
  }

  /** Leading zeros do not change the value of a digit string. */
  lemma {:induction false} ParseLeadingZeros(z: string, s: string)
    requires AllZeros(z) && AllDigits(s)
    ensures ParseNat(z + s) == ParseNat(s)
    decreases |s|
  {
    if |s| == 0 {
      assert z + s == z;
      ParseZeros(z);
    } else {
      var t := z + s;
      assert t[..|t| - 1] == z + s[..|s| - 1];
      assert t[|t| - 1] == s[|s| - 1];
      ParseLeadingZeros(z, s[..|s| - 1]);
    }
  }

  /** `s.padStart(width, fill)` for a one-character `fill`. */
  function PadStart(s: string, width: nat, fill: char): (r: string)
    ensures |r| == Max(width, |s|)
    ensures r[|r| - |s|..] == s
    ensures forall i :: 0 <= i < |r| - |s| ==> r[i] == fill
  {
    if |s| >= width then s else seq(width - |s|, _ => fill) + s
  }

  /** How `Array.prototype.slice` turns a relative index into a position in `[0, len]`. */
  function RelativeIndex(k: int, len: nat): (p: nat)
    ensures p <= len
    ensures 0 <= k ==> p == Min(k, len)
    ensures k < 0 ==> p == Max(len + k, 0)
  {
    if k < 0 then (if len + k < 0 then 0 else len + k) else (if k < len then k else len)
  }

  /** `s.slice(start, end)`: an empty result when the resolved end is not past the resolved start. */
  function Slice<T>(s: seq<T>, start: int, end: int): (r: seq<T>)
    ensures var from, to := RelativeIndex(start, |s|), RelativeIndex(end, |s|);
      if from < to then r == s[from..to] else r == []
  {
    var from, to := RelativeIndex(start, |s|), RelativeIndex(end, |s|);
    if from < to then s[from..to] else []
  }

  /** Membership in a concatenation is membership in either part. */
  lemma InConcat<T>(x: T, a: seq<T>, b: seq<T>)
    ensures x in a + b <==> x in a || x in b
  {
  }

  lemma ConcatAssoc<T>(a: seq<T>, b: seq<T>, c: seq<T>)
    ensures a + b + c == a + (b + c)
  {
  }

  /** Occurrences in a concatenation add up. */
  lemma CountConcat<T>(a: seq<T>, b: seq<T>, x: T)
    ensures multiset(a + b)[x] == multiset(a)[x] + multiset(b)[x]
  {
  }

  /** `s.slice(0, limit)` is the prefix up to the resolved limit. */
  lemma SliceFromStart<T>(s: seq<T>, limit: int)
    ensures Slice(s, 0, limit) == s[..RelativeIndex(limit, |s|)]
  {
  }
}

=== FILE: registry.dfy ===
/**
 The location registry and sensor identities of the simulator
 (src/data/iotSimulator.ts): the twelve fixed sites, the `sensor-NNN` ids built
 from a site's position, and `Array.prototype.find` by id.
 */
module Registry {
  import opened Js
  import opened Types

  /** The fixed sensor sites, in table order. */
  const Locations: seq<SensorLocation> := [
    SensorLocation("loc-001", "Centro Histórico", "Bogotá", "Colombia", Coordinates(4.5981, -74.0758), Center, "urban"),
    SensorLocation("loc-002", "Zona Norte", "Medellín", "Colombia", Coordinates(6.2442, -75.5812), North, "urban"),
    SensorLocation("loc-003", "Puerto Marítimo", "Cartagena", "Colombia", Coordinates(10.4236, -75.5378), North, "coastal"),
    SensorLocation("loc-004", "Zona Industrial", "Cali", "Colombia", Coordinates(3.4516, -76.532), South, "industrial"),
    SensorLocation("loc-005", "Campus Universitario", "Bucaramanga", "Colombia", Coordinates(7.1253, -73.1198), East, "educational"),
    SensorLocation("loc-006", "Parque Nacional", "Manizales", "Colombia", Coordinates(5.07, -75.5138), Center, "natural"),
    SensorLocation("loc-007", "Puerto Pacífico", "Buenaventura", "Colombia", Coordinates(3.8801, -77.0313), West, "coastal"),
    SensorLocation("loc-008", "Aeropuerto Internacional", "Barranquilla", "Colombia", Coordinates(10.8896, -74.7804), North, "transport"),
    SensorLocation("loc-009", "Zona Petrolera", "Arauca", "Colombia", Coordinates(7.0832, -70.7619), East, "industrial"),
    SensorLocation("loc-010", "Selva Amazónica", "Leticia", "Colombia", Coordinates(-4.2158, -69.9406), South, "natural"),
    SensorLocation("loc-011", "Centro Minero", "Pereira", "Colombia", Coordinates(4.8133, -75.6961), West, "industrial"),
    SensorLocation("loc-012", "Zona Cafetera", "Armenia", "Colombia", Coordinates(4.5339, -75.6811), West, "agricultural")
  ]

  const IdPrefix: string := "sensor-"

  /** The id of the sensor built for the site at `index`: `sensor-` and the 1-based position padded to three digits. */
  function SensorIdFor(index: nat): (id: string)
    ensures |id| >= |IdPrefix| + 3
    ensures id[..|IdPrefix|] == IdPrefix
  {
    IdPrefix + PadStart(NatToString(index + 1), 3, '0')
  }

  /** The number written after `sensor-` in a generated id is the site's 1-based position. */
  lemma SensorIdNumber(index: nat)
    ensures AllDigits(SensorIdFor(index)[|IdPrefix|..])
    ensures ParseNat(SensorIdFor(index)[|IdPrefix|..]) == index + 1
  {
    var digits := NatToString(index + 1);
    var padded := PadStart(digits, 3, '0');
    var id := SensorIdFor(index);
    assert id[|IdPrefix|..] == padded;
    var zeros := padded[..|padded| - |digits|];
    assert padded == zeros + digits;
    assert AllZeros(zeros);
    ParseLeadingZeros(zeros, digits);
    ParseNatToString(index + 1);
  }

  /** Sites at different positions get different sensor ids. */
  lemma SensorIdInjective(i: nat, j: nat)
    ensures SensorIdFor(i) == SensorIdFor(j) ==> i == j
  {
    SensorIdNumber(i);
    SensorIdNumber(j);
  }

  predicate UniqueIds(sensors: seq<IoTSensor>) {
    forall i, j :: 0 <= i < j < |sensors| ==> sensors[i].id != sensors[j].id
  }

  /** `sensors.find((s) => s.id === id)`: the first sensor with that id, or nothing. */
  function FindSensor(sensors: seq<IoTSensor>, id: string): (r: Option<IoTSensor>)
    ensures r.None? <==> forall j :: 0 <= j < |sensors| ==> sensors[j].id != id
    ensures r.Some? ==> r.value.id == id
    ensures r.Some? ==> exists j :: (0 <= j < |sensors| && sensors[j] == r.value
      && forall k :: 0 <= k < j ==> sensors[k].id != id)
  {
    match FirstWithKey(sensors, SensorKey, id)
    case None => None
    case Some(k) => Some(sensors[k])
  }

  /** With unique ids, finding a sensor's id gives back that sensor. */
  lemma FindSensorUnique(sensors: seq<IoTSensor>, j: nat)
    requires UniqueIds(sensors) && j < |sensors|
    ensures FindSensor(sensors, sensors[j].id) == Some(sensors[j])
  {
    var k := FirstWithKey(sensors, SensorKey, sensors[j].id);
    assert k.Some?;
  }
}

=== FILE: simulator.dfy ===
/**
 The `IoTSensorSimulator` class (src/data/iotSimulator.ts) as a value: building
 the sensors and their seeded histories, one tick of `updateReadings`, the
 public queries, the running flag and the system statistics. Random draws and
 clock readings are parameters.
 */
module Simulator {
  import opened Js
  import opened Types
  import opened Registry
  import opened Generator
  import opened History
  import opened AlertEngine

  /**
   The fields of the simulator. `readings` is the per-sensor history map and
   `timer` stands for `intervalId`: the interval, in seconds, of the scheduled
   tick, or `None` when nothing is scheduled.
   */
  datatype SimulatorState = SimulatorState(
    sensors: seq<IoTSensor>,
    readings: map<string, seq<SensorReading>>,
    alerts: seq<Alert>,
    isRunning: bool,
    timer: Option<int>)

  // ---------------------------------------------------------------------------
  // Construction

  /** The draws building one sensor consumes, in the order the constructor makes them. */
  datatype SensorDraws = SensorDraws(
    status: real,
    lastReading: ReadingDraws,
    battery: real,
    signal: real,
    firmwareMinor: real,
    firmwarePatch: real,
    install: real,
    maintenance: real,
    active: real)

  predicate ValidSensorDraws(d: SensorDraws) {
    && IsDraw(d.status) && ValidReadingDraws(d.lastReading) && IsDraw(d.battery) && IsDraw(d.signal)
    && IsDraw(d.firmwareMinor) && IsDraw(d.firmwarePatch) && IsDraw(d.install)
    && IsDraw(d.maintenance) && IsDraw(d.active)
  }

  const MsPerDay: nat := 24 * 60 * 60 * 1000
  const SeedLength: nat := 100
  const SeedStepMs: int := 60000

  lemma ScaledDraw(draw: real, span: real)
    requires IsDraw(draw) && 0.0 <= span
    ensures 0.0 <= draw * span <= span
  {
    assert span - draw * span == (1.0 - draw) * span;
  }

  /** `new Date(Date.now() - Math.random() * spanMs)`, as the time value it holds. */
  function TimeAgo(now: int, draw: real, spanMs: nat): (t: int)
    ensures IsDraw(draw) ==> now - spanMs <= t <= now
  {
    var x := now as real - draw * spanMs as real;
    if IsDraw(draw) then
      ScaledDraw(draw, spanMs as real);
      assert (now - spanMs) as real == now as real - spanMs as real;
      TruncateWithin(x, now - spanMs, now);
      Truncate(x)
    else Truncate(x)
  }

  const YearMs: nat := 365 * MsPerDay
  const QuarterMs: nat := 90 * MsPerDay

  /** The sensor built for the site at `index`. */
  function MakeSensor(index: nat, location: SensorLocation, now: int, d: SensorDraws): (s: IoTSensor)
    ensures s.id == SensorIdFor(index) && s.location == location
    ensures s.status == Online <==> d.status > 0.1
    ensures s.status == Online || s.status == Offline
    ensures s.isActive <==> d.active > 0.05
    ensures s.lastReading.timestamp == now
    ensures ValidSensorDraws(d) ==> (&& 0 <= s.batteryLevel <= 99 && 0 <= s.signalStrength <= 99
      && InRange(s.lastReading)
      && now - YearMs <= s.installDate <= now
      && now - QuarterMs <= s.lastMaintenance <= now)
  {
    IoTSensor(
      SensorIdFor(index),
      "Sensor " + location.name,
      location,
      if d.status > 0.1 then Online else Offline,
      GenerateReading(location, now, d.lastReading),
      Floor(d.battery * 100.0),
      Floor(d.signal * 100.0),
      "v2." + IntToString(Floor(d.firmwareMinor * 10.0)) + "." + IntToString(Floor(d.firmwarePatch * 10.0)),
      TimeAgo(now, d.install, YearMs),
      TimeAgo(now, d.maintenance, QuarterMs),
      d.active > 0.05)
  }

  function Reverse<T>(s: seq<T>): (r: seq<T>)
    ensures |r| == |s|
    ensures forall i :: 0 <= i < |s| ==> r[i] == s[|s| - 1 - i]
  {
    seq(|s|, i requires 0 <= i < |s| => s[|s| - 1 - i])
  }

  /** What the first `n` turns of the seeding loop push: turn `i` is stamped `i` minutes before `now`. */
  function SeedPushes(location: SensorLocation, now: int, draws: nat -> ReadingDraws, n: nat): (h: seq<SensorReading>)
    ensures |h| == n
    ensures forall i :: 0 <= i < n ==> h[i] == GenerateReading(location, now - i * SeedStepMs, draws(i))
  {
    if n == 0 then [] else SeedPushes(location, now, draws, n - 1) + [GenerateReading(location, now - (n - 1) * SeedStepMs, draws(n - 1))]
  }

  /** The pushed readings reversed, so that the seeded history runs oldest first. */
  function SeedHistory(location: SensorLocation, now: int, draws: nat -> ReadingDraws): seq<SensorReading> {
    Reverse(SeedPushes(location, now, draws, SeedLength))
  }

  predicate Chronological(h: seq<SensorReading>) {
    forall i, j :: 0 <= i < j < |h| ==> h[i].timestamp < h[j].timestamp
  }

  /** A seeded history holds 100 readings a minute apart, oldest first, the newest stamped `now`. */
  lemma SeedHistoryShape(location: SensorLocation, now: int, draws: nat -> ReadingDraws)
    ensures var h := SeedHistory(location, now, draws);
      && |h| == SeedLength && Chronological(h) && h[|h| - 1].timestamp == now
      && forall i :: 0 <= i < |h| ==> h[i].timestamp == now - (SeedLength - 1 - i) * SeedStepMs
  {
    var h := SeedHistory(location, now, draws);
    var pushed := SeedPushes(location, now, draws, SeedLength);
    assert forall i :: 0 <= i < |h| ==> h[i] == pushed[SeedLength - 1 - i];
  }

  /** The `forEach` that stores, over the first `n` sensors, each one's seeded history under its id. */
  function SeedReadings(sensors: seq<IoTSensor>, seeded: seq<seq<SensorReading>>, n: nat): (m: map<string, seq<SensorReading>>)
    requires n <= |sensors| == |seeded|
    ensures m.Keys == set j | 0 <= j < n :: sensors[j].id
  {
    if n == 0 then map[]
    else SeedReadings(sensors, seeded, n - 1)[sensors[n - 1].id := seeded[n - 1]]
  }

  /** With unique ids the sensor at position `j` finds its own history under its id. */
  lemma {:induction false} SeedReadingsAt(sensors: seq<IoTSensor>, seeded: seq<seq<SensorReading>>, n: nat, j: nat)
    requires j < n <= |sensors| == |seeded| && UniqueIds(sensors)
    ensures var m := SeedReadings(sensors, seeded, n);
      sensors[j].id in m && m[sensors[j].id] == seeded[j]
    decreases n
  {
    if j < n - 1 {
      SeedReadingsAt(sensors, seeded, n - 1, j);
      assert sensors[j].id != sensors[n - 1].id;
    }
  }

  /** With unique ids every sensor finds its own history under its id. */
  lemma SeedReadingsLookup(sensors: seq<IoTSensor>, seeded: seq<seq<SensorReading>>)
    requires |sensors| == |seeded| && UniqueIds(sensors)
    ensures forall j :: 0 <= j < |sensors| ==>
      && sensors[j].id in SeedReadings(sensors, seeded, |sensors|)
      && SeedReadings(sensors, seeded, |sensors|)[sensors[j].id] == seeded[j]
  {
    forall j | 0 <= j < |sensors|
      ensures && sensors[j].id in SeedReadings(sensors, seeded, |sensors|)
        && SeedReadings(sensors, seeded, |sensors|)[sensors[j].id] == seeded[j]
    {
      SeedReadingsAt(sensors, seeded, |sensors|, j);
    }
  }

  /** One sensor per registry site, in table order. */
  function InitialSensors(now: int, draws: nat -> SensorDraws): (sensors: seq<IoTSensor>)
    ensures |sensors| == |Locations|
    ensures forall i :: 0 <= i < |sensors| ==> sensors[i] == MakeSensor(i, Locations[i], now, draws(i))
  {
    seq(|Locations|, i requires 0 <= i < |Locations| => MakeSensor(i, Locations[i], now, draws(i)))
  }

  /** The seeded history of each sensor, in sensor order. */
  function SeededHistories(sensors: seq<IoTSensor>, now: int, historyDraws: nat -> nat -> ReadingDraws): (seeded: seq<seq<SensorReading>>)
    ensures |seeded| == |sensors|
    ensures forall j :: 0 <= j < |sensors| ==> seeded[j] == SeedHistory(sensors[j].location, now, historyDraws(j))
  {
    seq(|sensors|, j requires 0 <= j < |sensors| => SeedHistory(sensors[j].location, now, historyDraws(j)))
  }

  /** The constructor: one sensor per registry site, each with a seeded history; no alerts; not running. */
  function Initialize(now: int, draws: nat -> SensorDraws, historyDraws: nat -> nat -> ReadingDraws): SimulatorState {
    var sensors := InitialSensors(now, draws);
    SimulatorState(sensors, SeedReadings(sensors, SeededHistories(sensors, now, historyDraws), |sensors|), [], false, None)
  }

  /** The constructed sensors are twelve, one per site in table order, with distinct ids `sensor-001` onwards. */
  lemma InitialSensorsShape(now: int, draws: nat -> SensorDraws)
    ensures var sensors := InitialSensors(now, draws);
      && |sensors| == 12
      && UniqueIds(sensors)
      && forall i :: 0 <= i < |sensors| ==> sensors[i].id == SensorIdFor(i) && sensors[i].location == Locations[i]
  {
    var sensors := InitialSensors(now, draws);
    forall i, j | 0 <= i < j < |sensors|
      ensures sensors[i].id != sensors[j].id
    {
      SensorIdInjective(i, j);
    }
  }

  /**
   The constructed simulator has twelve sensors with distinct ids, whose
   histories are keyed by those ids and hold 100 chronological readings each,
   the newest stamped with the construction time; no alerts, not running.
   */
  lemma InitializeShape(now: int, draws: nat -> SensorDraws, historyDraws: nat -> nat -> ReadingDraws)
    ensures var sim := Initialize(now, draws, historyDraws);
      && |sim.sensors| == 12
      && UniqueIds(sim.sensors)
      && sim.readings.Keys == (set i | 0 <= i < |sim.sensors| :: sim.sensors[i].id)
      && (forall i :: 0 <= i < |sim.sensors| ==>
            var h := sim.readings[sim.sensors[i].id];
            |h| == SeedLength && Chronological(h) && h[|h| - 1].timestamp == now)
      && sim.alerts == [] && !sim.isRunning && sim.timer.None?
  {
    var sim := Initialize(now, draws, historyDraws);
    InitialSensorsShape(now, draws);
    var seeded := SeededHistories(sim.sensors, now, historyDraws);
    assert sim.readings == SeedReadings(sim.sensors, seeded, |sim.sensors|);
    SeedReadingsLookup(sim.sensors, seeded);
    forall i | 0 <= i < |sim.sensors|
      ensures var h := sim.readings[sim.sensors[i].id];
        |h| == SeedLength && Chronological(h) && h[|h| - 1].timestamp == now
    {
      assert sim.readings[sim.sensors[i].id] == seeded[i];
      SeedHistoryShape(sim.sensors[i].location, now, historyDraws(i));
    }
  }

  // ---------------------------------------------------------------------------
  // One tick of `updateReadings`

  /** The draws and clock value the update of one sensor consumes. */
  datatype TickInput = TickInput(
    now: int,
    reading: ReadingDraws,
    statusChange: real,
    goesOffline: real,
    batteryDrain: real)

  /** Only online, active sensors are touched by a tick. */
  predicate Updatable(s: IoTSensor) {
    s.status == Online && s.isActive
  }

  /** `readings.get(id) || []`. */
  function HistoryOf(readings: map<string, seq<SensorReading>>, id: string): seq<SensorReading> {
    if id in readings then readings[id] else []
  }

  function NewReading(s: IoTSensor, input: TickInput): SensorReading {
    GenerateReading(s.location, input.now, input.reading)
  }

  /** An updated sensor: new last reading, maybe a new status, maybe one unit less battery. */
  function SensorAfterTick(s: IoTSensor, input: TickInput): (s': IoTSensor)
    ensures s'.lastReading == NewReading(s, input)
    ensures s' == s.(lastReading := s'.lastReading, status := s'.status, batteryLevel := s'.batteryLevel)
    ensures s'.status == s.status || s'.status == Offline || s'.status == Maintenance
    ensures s.batteryLevel - 1 <= s'.batteryLevel
    ensures 0 <= s.batteryLevel ==> 0 <= s'.batteryLevel <= s.batteryLevel
    ensures input.statusChange >= 0.001 ==> s'.status == s.status
    ensures input.statusChange < 0.001 ==> s'.status == (if input.goesOffline > 0.7 then Offline else Maintenance)
    ensures input.batteryDrain >= 0.01 ==> s'.batteryLevel == s.batteryLevel
    ensures input.batteryDrain < 0.01 ==> s'.batteryLevel == Max(0, s.batteryLevel - 1)
  {
    var status :=
      if input.statusChange < 0.001 then (if input.goesOffline > 0.7 then Offline else Maintenance)
      else s.status;
    var battery := if input.batteryDrain < 0.01 then Max(0, s.batteryLevel - 1) else s.batteryLevel;
    s.(lastReading := NewReading(s, input), status := status, batteryLevel := battery)
  }

  /** The alerts `checkAlerts` raises for an updated sensor: battery as it was before the drain. */
  function TickAlerts(s: IoTSensor, input: TickInput): seq<Alert> {
    CheckAlerts(s.id, s.batteryLevel, NewReading(s, input), input.now)
  }

  /** The `forEach` callback for the sensor at position `i`. */
  function UpdateSensorAt(sim: SimulatorState, i: nat, input: TickInput): (r: SimulatorState)
    requires i < |sim.sensors|
    ensures |r.sensors| == |sim.sensors|
  {
    var s := sim.sensors[i];
    if Updatable(s) then
      sim.(sensors := sim.sensors[i := SensorAfterTick(s, input)],
           readings := sim.readings[s.id := AppendReading(HistoryOf(sim.readings, s.id), NewReading(s, input))],
           alerts := sim.alerts + TickAlerts(s, input))
    else sim
  }

  /** The callback applied to the sensors from position `i` on, in order. */
  function UpdateFrom(sim: SimulatorState, i: nat, inputs: nat -> TickInput): SimulatorState
    decreases |sim.sensors| - i
  {
    if i >= |sim.sensors| then sim else UpdateFrom(UpdateSensorAt(sim, i, inputs(i)), i + 1, inputs)
  }

  /** `updateReadings`: one tick; `inputs(j)` feeds the sensor at position `j`. */
  function UpdateReadings(sim: SimulatorState, inputs: nat -> TickInput): SimulatorState {
    UpdateFrom(sim, 0, inputs)
  }

  /**
   Frame of a tick: sensors that are not online and active keep every field,
   updatable ones become `SensorAfterTick`, and the list, the flag and the
   timer keep their shape.
   */
  lemma {:induction false} TickSensors(sim: SimulatorState, i: nat, inputs: nat -> TickInput)
    ensures var r := UpdateFrom(sim, i, inputs);
      && |r.sensors| == |sim.sensors|
      && r.isRunning == sim.isRunning && r.timer == sim.timer
      && forall j :: 0 <= j < |sim.sensors| ==>
           r.sensors[j] == if i <= j && Updatable(sim.sensors[j]) then SensorAfterTick(sim.sensors[j], inputs(j)) else sim.sensors[j]
    decreases |sim.sensors| - i
  {
    if i < |sim.sensors| {
      var next := UpdateSensorAt(sim, i, inputs(i));
      TickSensors(next, i + 1, inputs);
      if Updatable(sim.sensors[i]) {
        assert next.sensors == sim.sensors[i := SensorAfterTick(sim.sensors[i], inputs(i))];
      } else {
        assert next == sim;
      }
    }
  }

  /** Ids of the sensors from position `i` on that a tick updates. */
  function UpdatedIds(sensors: seq<IoTSensor>, i: nat): set<string> {
    set j | i <= j < |sensors| && Updatable(sensors[j]) :: sensors[j].id
  }

  /** A tick leaves the history of every other key exactly as it was, present or absent. */
  lemma {:induction false} TickUntouchedHistories(sim: SimulatorState, i: nat, inputs: nat -> TickInput, k: string)
    requires k !in UpdatedIds(sim.sensors, i)
    ensures var r := UpdateFrom(sim, i, inputs);
      (k in r.readings <==> k in sim.readings) && (k in sim.readings ==> r.readings[k] == sim.readings[k])
    decreases |sim.sensors| - i
  {
    if i < |sim.sensors| {
      var next := UpdateSensorAt(sim, i, inputs(i));
      assert forall j :: i < j < |sim.sensors| ==> next.sensors[j] == sim.sensors[j];
      assert UpdatedIds(next.sensors, i + 1) <= UpdatedIds(sim.sensors, i);
      TickUntouchedHistories(next, i + 1, inputs, k);
    }
  }

  /** One callback keeps every sensor's id and every later sensor as it was. */
  lemma UpdateSensorAtFrame(sim: SimulatorState, i: nat, input: TickInput)
    requires i < |sim.sensors|
    ensures var next := UpdateSensorAt(sim, i, input);
      && (forall j :: 0 <= j < |sim.sensors| ==> next.sensors[j].id == sim.sensors[j].id)
      && (forall j :: 0 <= j < |sim.sensors| && j != i ==> next.sensors[j] == sim.sensors[j])
      && (forall k :: k != sim.sensors[i].id ==> HistoryOf(next.readings, k) == HistoryOf(sim.readings, k))
  {
  }

  lemma UniqueIdsTransfer(a: seq<IoTSensor>, b: seq<IoTSensor>)
    requires UniqueIds(a) && |a| == |b| && forall j :: 0 <= j < |a| ==> a[j].id == b[j].id
    ensures UniqueIds(b)
  {
    forall i, j | 0 <= i < j < |b|
      ensures b[i].id != b[j].id
    {
      assert a[i].id != a[j].id;
    }
  }

  /** With unique ids, each updated sensor's history gets exactly one append: its new reading. */
  lemma {:induction false} TickAppendsHistories(sim: SimulatorState, i: nat, inputs: nat -> TickInput)
    requires UniqueIds(sim.sensors)
    ensures var r := UpdateFrom(sim, i, inputs);
      forall j :: i <= j < |sim.sensors| && Updatable(sim.sensors[j]) ==>
        && sim.sensors[j].id in r.readings
        && r.readings[sim.sensors[j].id] == AppendReading(HistoryOf(sim.readings, sim.sensors[j].id), NewReading(sim.sensors[j], inputs(j)))
    decreases |sim.sensors| - i
  {
    if i < |sim.sensors| {
      var next := UpdateSensorAt(sim, i, inputs(i));
      var r := UpdateFrom(next, i + 1, inputs);
      var s := sim.sensors[i];
      assert UpdateFrom(sim, i, inputs) == r;
      UpdateSensorAtFrame(sim, i, inputs(i));
      UniqueIdsTransfer(sim.sensors, next.sensors);
      TickAppendsHistories(next, i + 1, inputs);
      forall j | i <= j < |sim.sensors| && Updatable(sim.sensors[j])
        ensures && sim.sensors[j].id in r.readings
          && r.readings[sim.sensors[j].id] == AppendReading(HistoryOf(sim.readings, sim.sensors[j].id), NewReading(sim.sensors[j], inputs(j)))
      {
        if j == i {
          assert s.id !in UpdatedIds(next.sensors, i + 1) by {
            forall m | i + 1 <= m < |next.sensors|
              ensures next.sensors[m].id != s.id
            {
              assert sim.sensors[m].id != s.id;
            }
          }
          TickUntouchedHistories(next, i + 1, inputs, s.id);
        } else {
          assert next.sensors[j] == sim.sensors[j];
          assert sim.sensors[j].id != s.id;
        }
      }
    }
  }

  predicate Capped(readings: map<string, seq<SensorReading>>) {
    forall k :: k in readings ==> |readings[k]| <= MaxHistory
  }

  /** No history grows past 1000 readings during a tick. */
  lemma {:induction false} TickKeepsCap(sim: SimulatorState, i: nat, inputs: nat -> TickInput)
    requires Capped(sim.readings)
    ensures Capped(UpdateFrom(sim, i, inputs).readings)
    decreases |sim.sensors| - i
  {
    if i < |sim.sensors| {
      var next := UpdateSensorAt(sim, i, inputs(i));
      var s := sim.sensors[i];
      if Updatable(s) {
        AppendKeepsCap(HistoryOf(sim.readings, s.id), NewReading(s, inputs(i)));
      }
      TickKeepsCap(next, i + 1, inputs);
    }
  }

  /** The alerts the sensors from position `i` on raise during a tick, in sensor order. */
  function FiredFrom(sensors: seq<IoTSensor>, i: nat, inputs: nat -> TickInput): (fired: seq<Alert>)
    decreases |sensors| - i
  {
    if i >= |sensors| then []
    else (if Updatable(sensors[i]) then TickAlerts(sensors[i], inputs(i)) else []) + FiredFrom(sensors, i + 1, inputs)
  }

  /** A tick appends exactly the alerts its updated sensors raise, in sensor order. */
  lemma {:induction false} TickAlertsExact(sim: SimulatorState, i: nat, inputs: nat -> TickInput)
    ensures UpdateFrom(sim, i, inputs).alerts == sim.alerts + FiredFrom(sim.sensors, i, inputs)
    decreases |sim.sensors| - i
  {
    if i < |sim.sensors| {
      var next := UpdateSensorAt(sim, i, inputs(i));
      var head := if Updatable(sim.sensors[i]) then TickAlerts(sim.sensors[i], inputs(i)) else [];
      var tail := FiredFrom(sim.sensors, i + 1, inputs);
      assert UpdateFrom(sim, i, inputs) == UpdateFrom(next, i + 1, inputs);
      assert FiredFrom(sim.sensors, i, inputs) == head + tail;
      StepAlerts(sim, i, inputs(i));
      TickAlertsExact(next, i + 1, inputs);
      FiredFromFrame(next.sensors, sim.sensors, i + 1, inputs);
      ConcatAssoc(sim.alerts, head, tail);
    }
  }

  /** One callback appends the sensor's alerts, if it is updated, and keeps every later sensor. */
  lemma StepAlerts(sim: SimulatorState, i: nat, input: TickInput)
    requires i < |sim.sensors|
    ensures var next := UpdateSensorAt(sim, i, input);
      && next.alerts == sim.alerts + (if Updatable(sim.sensors[i]) then TickAlerts(sim.sensors[i], input) else [])
      && |next.sensors| == |sim.sensors|
      && forall j :: i < j < |sim.sensors| ==> next.sensors[j] == sim.sensors[j]
  {
  }

  /** The alerts raised from position `i` on depend only on the sensors from there on. */
  lemma {:induction false} FiredFromFrame(a: seq<IoTSensor>, b: seq<IoTSensor>, i: nat, inputs: nat -> TickInput)
    requires |a| == |b| && forall j :: i <= j < |a| ==> a[j] == b[j]
    ensures FiredFrom(a, i, inputs) == FiredFrom(b, i, inputs)
    decreases |a| - i
  {
    if i < |a| {
      FiredFromFrame(a, b, i + 1, inputs);
    }
  }

  /** At most three alerts per sensor, each well formed, unresolved and raised for an updated sensor. */
  lemma {:induction false} FiredProvenance(sensors: seq<IoTSensor>, i: nat, inputs: nat -> TickInput)
    requires i <= |sensors|
    ensures var fired := FiredFrom(sensors, i, inputs);
      && |fired| <= 3 * (|sensors| - i)
      && forall k :: 0 <= k < |fired| ==>
           && WellFormed(fired[k]) && !fired[k].isResolved
           && exists j :: i <= j < |sensors| && Updatable(sensors[j]) && fired[k].sensorId == sensors[j].id
    decreases |sensors| - i
  {
    if i < |sensors| {
      FiredProvenance(sensors, i + 1, inputs);
      var head := if Updatable(sensors[i]) then TickAlerts(sensors[i], inputs(i)) else [];
      var rest := FiredFrom(sensors, i + 1, inputs);
      var fired := FiredFrom(sensors, i, inputs);
      assert fired == head + rest;
      assert 3 * (|sensors| - i) == 3 + 3 * (|sensors| - (i + 1));
      forall k | 0 <= k < |fired|
        ensures && WellFormed(fired[k]) && !fired[k].isResolved
          && exists j :: i <= j < |sensors| && Updatable(sensors[j]) && fired[k].sensorId == sensors[j].id
      {
        if k < |head| {
          assert fired[k] == head[k];
          assert WellFormed(head[k]) && !head[k].isResolved && head[k].sensorId == sensors[i].id;
          assert Updatable(sensors[i]);
        } else {
          var a := rest[k - |head|];
          assert fired[k] == a;
          var j :| i + 1 <= j < |sensors| && Updatable(sensors[j]) && a.sensorId == sensors[j].id;
          assert WellFormed(a) && !a.isResolved;
        }
      }
    }
  }

  /** Every alert an updated sensor raises is among the tick's alerts. */
  lemma {:induction false} FiredIncludes(sensors: seq<IoTSensor>, i: nat, inputs: nat -> TickInput, j: nat, a: Alert)
    requires i <= j < |sensors| && Updatable(sensors[j]) && a in TickAlerts(sensors[j], inputs(j))
    ensures a in FiredFrom(sensors, i, inputs)
    decreases j - i
  {
    var head := if Updatable(sensors[i]) then TickAlerts(sensors[i], inputs(i)) else [];
    var tail := FiredFrom(sensors, i + 1, inputs);
    assert FiredFrom(sensors, i, inputs) == head + tail;
    if i < j {
      FiredIncludes(sensors, i + 1, inputs, j, a);
      InConcat(a, head, tail);
    } else {
      InConcat(a, head, tail);
    }
  }

  /**
   A tick only appends alerts: the old list is a prefix, each sensor adds at
   most three, and every new alert is well formed, unresolved and raised for a
   sensor the tick updated.
   */
  lemma TickAppendsAlerts(sim: SimulatorState, inputs: nat -> TickInput)
    ensures var r := UpdateReadings(sim, inputs);
      && |sim.alerts| <= |r.alerts| <= |sim.alerts| + 3 * |sim.sensors|
      && r.alerts[..|sim.alerts|] == sim.alerts
      && forall k :: |sim.alerts| <= k < |r.alerts| ==>
           && WellFormed(r.alerts[k]) && !r.alerts[k].isResolved
           && exists j :: 0 <= j < |sim.sensors| && Updatable(sim.sensors[j]) && r.alerts[k].sensorId == sim.sensors[j].id
  {
    var r := UpdateReadings(sim, inputs);
    var fired := FiredFrom(sim.sensors, 0, inputs);
    TickAlertsExact(sim, 0, inputs);
    FiredProvenance(sim.sensors, 0, inputs);
    assert r.alerts == sim.alerts + fired;
    forall k | |sim.alerts| <= k < |r.alerts|
      ensures && WellFormed(r.alerts[k]) && !r.alerts[k].isResolved
        && exists j :: 0 <= j < |sim.sensors| && Updatable(sim.sensors[j]) && r.alerts[k].sensorId == sim.sensors[j].id
    {
      var a := fired[k - |sim.alerts|];
      assert r.alerts[k] == a;
      var j :| 0 <= j < |sim.sensors| && Updatable(sim.sensors[j]) && a.sensorId == sim.sensors[j].id;
      assert WellFormed(a) && !a.isResolved;
    }
  }

  /** After a tick each updated sensor's last reading is the newest entry of its history (ids unique). */
  lemma TickLastReadingIsNewest(sim: SimulatorState, inputs: nat -> TickInput, j: nat)
    requires UniqueIds(sim.sensors) && j < |sim.sensors| && Updatable(sim.sensors[j])
    ensures var r := UpdateReadings(sim, inputs);
      && sim.sensors[j].id in r.readings && |r.readings[sim.sensors[j].id]| > 0
      && |r.sensors| == |sim.sensors| && r.sensors[j].id == sim.sensors[j].id
      && r.sensors[j].lastReading == r.readings[sim.sensors[j].id][|r.readings[sim.sensors[j].id]| - 1]
  {
    TickSensors(sim, 0, inputs);
    TickAppendsHistories(sim, 0, inputs);
  }

  /** The battery alert `checkAlerts` raises for a sensor whose battery is below 20. */
  lemma LowBatteryFires(s: IoTSensor, input: TickInput) returns (a: Alert)
    requires s.batteryLevel < 20
    ensures a in TickAlerts(s, input)
    ensures a.kind == BatteryAlert && !a.isResolved && a.sensorId == s.id
    ensures a.severity == Critical <==> s.batteryLevel < 10
  {
    var fired := TickAlerts(s, input);
    assert HasKind(fired, BatteryAlert);
    var b :| 0 <= b < |fired| && fired[b].kind == BatteryAlert;
    a := fired[b];
    assert WellFormed(a) && a.value == s.batteryLevel as real;
  }

  /** Where the battery alert of a low-battery updated sensor sits among the alerts a tick raises. */
  lemma FiredBatteryAlert(sensors: seq<IoTSensor>, inputs: nat -> TickInput, j: nat) returns (c: nat)
    requires j < |sensors| && Updatable(sensors[j]) && sensors[j].batteryLevel < 20
    ensures var all := FiredFrom(sensors, 0, inputs);
      && c < |all| && !all[c].isResolved
      && all[c].kind == BatteryAlert && all[c].sensorId == sensors[j].id
      && (all[c].severity == Critical <==> sensors[j].batteryLevel < 10)
  {
    var a := LowBatteryFires(sensors[j], inputs(j));
    FiredIncludes(sensors, 0, inputs, j, a);
    var all := FiredFrom(sensors, 0, inputs);
    c :| 0 <= c < |all| && all[c] == a;
  }

  /** A tick that updates a sensor whose battery is below 20 records a battery alert for it. */
  lemma TickLowBatteryAlert(sim: SimulatorState, inputs: nat -> TickInput, j: nat)
    requires j < |sim.sensors| && Updatable(sim.sensors[j]) && sim.sensors[j].batteryLevel < 20
    ensures var r := UpdateReadings(sim, inputs);
      exists k :: |sim.alerts| <= k < |r.alerts| && !r.alerts[k].isResolved
        && r.alerts[k].kind == BatteryAlert && r.alerts[k].sensorId == sim.sensors[j].id
        && (r.alerts[k].severity == Critical <==> sim.sensors[j].batteryLevel < 10)
  {
    var r := UpdateReadings(sim, inputs);
    var all := FiredFrom(sim.sensors, 0, inputs);
    TickAlertsExact(sim, 0, inputs);
    var c := FiredBatteryAlert(sim.sensors, inputs, j);
    assert r.alerts == sim.alerts + all;
    var k := |sim.alerts| + c;
    assert r.alerts[k] == all[c];
  }

  // ---------------------------------------------------------------------------
  // Queries

  /** `getSensors`: the sensors in registry order. */
  function GetSensors(sim: SimulatorState): (r: seq<IoTSensor>)
    ensures |r| == |sim.sensors| && forall j :: 0 <= j < |r| ==> r[j] == sim.sensors[j]
  {
    sim.sensors[..]
  }

  /** `getSensor(id)`: the first sensor with that id, or nothing. */
  function GetSensor(sim: SimulatorState, id: string): (r: Option<IoTSensor>)
    ensures r.None? <==> forall j :: 0 <= j < |sim.sensors| ==> sim.sensors[j].id != id
    ensures r.Some? ==> r.value.id == id
    ensures r.Some? ==> exists j :: (0 <= j < |sim.sensors| && sim.sensors[j] == r.value
      && forall k :: 0 <= k < j ==> sim.sensors[k].id != id)
  {
    FindSensor(sim.sensors, id)
  }

  /**
   `getSensorHistory(id, limit)`: nothing for an unknown sensor or an empty
   window; otherwise the summary of `slice(-limit)` of its history.
   */
  function GetSensorHistory(sim: SimulatorState, sensorId: string, limit: int): (r: Option<SensorHistory>)
    ensures r.None? <==> GetSensor(sim, sensorId).None? || |Window(HistoryOf(sim.readings, sensorId), limit)| == 0
    ensures r.Some? ==> r.value.sensorId == sensorId && r.value.readings == Window(HistoryOf(sim.readings, sensorId), limit)
    ensures r.Some? ==> r.value == Summarize(sensorId, r.value.readings)
  {
    if GetSensor(sim, sensorId).None? then None
    else
      var window := Window(HistoryOf(sim.readings, sensorId), limit);
      if |window| == 0 then None else Some(Summarize(sensorId, window))
  }

  /**
   For a positive limit the query returns the last `min(limit, n)` readings in
   their original order, and returns something exactly when the sensor exists
   and has readings.
   */
  lemma HistoryQueryWindow(sim: SimulatorState, sensorId: string, limit: int)
    requires 1 <= limit
    ensures var h := HistoryOf(sim.readings, sensorId);
      var r := GetSensorHistory(sim, sensorId, limit);
      && (r.Some? <==> GetSensor(sim, sensorId).Some? && |h| > 0)
      && (r.Some? ==> r.value.readings == h[|h| - Min(limit, |h|)..] && |r.value.readings| == Min(limit, |h|))
  {
    WindowShape(HistoryOf(sim.readings, sensorId), limit);
  }

  /** `getSensorHistory(id, 0)`: `slice(-0)` is the whole history. */
  lemma HistoryQueryZeroLimit(sim: SimulatorState, sensorId: string)
    ensures var h := HistoryOf(sim.readings, sensorId);
      var r := GetSensorHistory(sim, sensorId, 0);
      r.Some? ==> r.value.readings == h
  {
    WindowShape(HistoryOf(sim.readings, sensorId), 0);
  }

  // ---------------------------------------------------------------------------
  // Alerts and lifecycle

  /** `getAlerts(limit)` on the simulator. */
  function ActiveAlerts(sim: SimulatorState, limit: int): (r: seq<Alert>)
    ensures forall i :: 0 <= i < |r| ==> !r[i].isResolved && r[i] in sim.alerts
    ensures NewestFirst(r)
    ensures 0 <= limit ==> |r| == Min(limit, |Unresolved(sim.alerts)|)
    ensures limit < 0 ==> |r| == Max(|Unresolved(sim.alerts)| + limit, 0)
    ensures r == SortNewestFirst(Unresolved(sim.alerts))[..|r|]
  {
    GetAlerts(sim.alerts, limit)
  }

  /** `resolveAlert(id)` on the simulator: only the alert list may change. */
  function Resolve(sim: SimulatorState, alertId: string): (r: (bool, SimulatorState))
    ensures r.1 == sim.(alerts := r.1.alerts)
    ensures r.0 <==> exists j :: 0 <= j < |sim.alerts| && sim.alerts[j].id == alertId
    ensures !r.0 ==> r.1 == sim
    ensures r.0 ==> exists k :: (&& 0 <= k < |sim.alerts| && sim.alerts[k].id == alertId
      && (forall j :: 0 <= j < k ==> sim.alerts[j].id != alertId)
      && r.1.alerts == sim.alerts[k := sim.alerts[k].(isResolved := true)])
  {
    var res := ResolveAlert(sim.alerts, alertId);
    (res.found, sim.(alerts := res.alerts))
  }

  /** `startSimulation(interval)`: schedules ticks unless already running. */
  function StartSimulation(sim: SimulatorState, intervalSeconds: int): (r: SimulatorState)
    ensures r.isRunning && r == sim.(isRunning := true, timer := r.timer)
    ensures sim.isRunning ==> r.timer == sim.timer
    ensures !sim.isRunning ==> r.timer == Some(intervalSeconds)
  {
    if sim.isRunning then sim else sim.(isRunning := true, timer := Some(intervalSeconds))
  }

  /** `stopSimulation()`: cancels the scheduled tick, if any, and clears the flag. */
  function StopSimulation(sim: SimulatorState): (r: SimulatorState)
    ensures !r.isRunning && r.timer.None?
    ensures r.sensors == sim.sensors && r.readings == sim.readings && r.alerts == sim.alerts
  {
    var cleared := if sim.timer.Some? then sim.(timer := None) else sim;
    cleared.(isRunning := false)
  }

  /** What the timer does when it fires: a tick if one is scheduled, nothing otherwise. */
  function TimerFires(sim: SimulatorState, inputs: nat -> TickInput): SimulatorState {
    if sim.timer.Some? then UpdateReadings(sim, inputs) else sim
  }

  /**
   Starting twice is starting once (the second call keeps the first interval);
   stopping twice is stopping once; and after a stop no tick fires.
   */
  lemma LifecycleLaws(sim: SimulatorState, a: int, b: int, inputs: nat -> TickInput)
    ensures StartSimulation(StartSimulation(sim, a), b) == StartSimulation(sim, a)
    ensures StopSimulation(StopSimulation(sim)) == StopSimulation(sim)
    ensures TimerFires(StopSimulation(sim), inputs) == StopSimulation(sim)
    ensures !StopSimulation(StartSimulation(sim, a)).isRunning
  {
  }

  // ---------------------------------------------------------------------------
  // System statistics

  function SensorsWithStatus(sensors: seq<IoTSensor>, status: SensorStatus): (r: seq<IoTSensor>)
    ensures |r| <= |sensors|
    ensures forall j :: 0 <= j < |r| ==> r[j].status == status && r[j] in sensors
    ensures forall j :: 0 <= j < |sensors| && sensors[j].status == status ==> sensors[j] in r
  {
    if |sensors| == 0 then []
    else (if sensors[0].status == status then [sensors[0]] else []) + SensorsWithStatus(sensors[1..], status)
  }

  /** A sensor with the status is counted as often as it occurs; any other sensor never is. */
  lemma {:induction false} SensorsWithStatusCounts(sensors: seq<IoTSensor>, status: SensorStatus, x: IoTSensor)
    ensures multiset(SensorsWithStatus(sensors, status))[x] == if x.status == status then multiset(sensors)[x] else 0
    decreases |sensors|
  {
    if |sensors| > 0 {
      var y := sensors[0];
      var head := if y.status == status then [y] else [];
      var rest := SensorsWithStatus(sensors[1..], status);
      assert SensorsWithStatus(sensors, status) == head + rest;
      assert sensors == [y] + sensors[1..];
      SensorsWithStatusCounts(sensors[1..], status, x);
      CountConcat(head, rest, x);
      CountConcat([y], sensors[1..], x);
    }
  }

  /** Every sensor has exactly one of the four statuses, so the four counts add up to the total. */
  lemma {:induction false} StatusCountsPartition(sensors: seq<IoTSensor>)
    ensures |SensorsWithStatus(sensors, Online)| + |SensorsWithStatus(sensors, Offline)|
      + |SensorsWithStatus(sensors, Maintenance)| + |SensorsWithStatus(sensors, Error)| == |sensors|
  {
    if |sensors| > 0 {
      StatusCountsPartition(sensors[1..]);
    }
  }

  /** Sum of the lengths of the histories stored under `keys`. */
  ghost function LengthsOver(m: map<string, seq<SensorReading>>, keys: set<string>): nat
    requires keys <= m.Keys
  {
    if keys == {} then 0
    else
      var k :| k in keys;
      |m[k]| + LengthsOver(m, keys - {k})
  }

  /** Sum of the lengths of all histories in the map. */
  ghost function TotalReadings(m: map<string, seq<SensorReading>>): nat {
    LengthsOver(m, m.Keys)
  }

  /** The sum does not depend on which key is taken out first. */
  lemma {:induction false} LengthsOverWithout(m: map<string, seq<SensorReading>>, keys: set<string>, k: string)
    requires keys <= m.Keys && k in keys
    ensures LengthsOver(m, keys) == |m[k]| + LengthsOver(m, keys - {k})
  {
    var c :| c in keys && LengthsOver(m, keys) == |m[c]| + LengthsOver(m, keys - {c});
    if c != k {
      LengthsOverWithout(m, keys - {c}, k);
      LengthsOverWithout(m, keys - {k}, c);
      assert keys - {c} - {k} == keys - {k} - {c};
    }
  }

  /** Taking one history out of the map takes its length out of the total. */
  lemma TotalReadingsWithout(m: map<string, seq<SensorReading>>, k: string)
    requires k in m
    ensures TotalReadings(m) == |m[k]| + TotalReadings(m - {k})
  {
    LengthsOverWithout(m, m.Keys, k);
    var rest := m - {k};
    assert rest.Keys == m.Keys - {k};
    LengthsOverSameValues(m, rest, rest.Keys);
  }

  /** The sum only reads the histories under `keys`. */
  lemma {:induction false} LengthsOverSameValues(m: map<string, seq<SensorReading>>, m': map<string, seq<SensorReading>>, keys: set<string>)
    requires keys <= m.Keys && keys <= m'.Keys
    requires forall k :: k in keys ==> m[k] == m'[k]
    ensures LengthsOver(m, keys) == LengthsOver(m', keys)
  {
    if keys != {} {
      var c :| c in keys && LengthsOver(m, keys) == |m[c]| + LengthsOver(m, keys - {c});
      LengthsOverWithout(m', keys, c);
      LengthsOverSameValues(m, m', keys - {c});
    }
  }

  /** The `reduce` over the history map's values that counts the stored readings. */
  method DataPoints(readings: map<string, seq<SensorReading>>) returns (n: nat)
    ensures n == TotalReadings(readings)
  {
    n := 0;
    var rest := readings;
    while rest != map[]
      invariant n + TotalReadings(rest) == TotalReadings(readings)
      decreases |rest.Keys|
    {
      var k :| k in rest;
      TotalReadingsWithout(rest, k);
      assert (rest - {k}).Keys == rest.Keys - {k};
      n := n + |rest[k]|;
      rest := rest - {k};
    }
  }

  /** Mean of the online sensors' last readings for one metric, or `None` (NaN) when none is online. */
  function OnlineMean(sensors: seq<IoTSensor>, m: Metric): (r: Option<real>)
    ensures r.Some? <==> |SensorsWithStatus(sensors, Online)| > 0
  {
    var online := SensorsWithStatus(sensors, Online);
    Mean(seq(|online|, j requires 0 <= j < |online| => ValueOf(online[j].lastReading, m)))
  }

  /**
   `getSystemStats()` at clock value `now`: the status counts, averages over
   the online sensors, the active-alert count of `getAlerts()` and the number
   of stored readings.
   */
  method GetSystemStats(sim: SimulatorState, now: int) returns (st: SystemStats)
    ensures st.totalSensors == |sim.sensors|
    ensures st.activeSensors == |SensorsWithStatus(sim.sensors, Online)|
    ensures st.offlineSensors == |SensorsWithStatus(sim.sensors, Offline)|
    ensures st.maintenanceSensors == |SensorsWithStatus(sim.sensors, Maintenance)|
    ensures st.activeSensors + st.offlineSensors + st.maintenanceSensors <= st.totalSensors
    ensures st.activeAlerts == Min(DefaultAlertLimit, |Unresolved(sim.alerts)|) <= 50
    ensures st.dataPoints == TotalReadings(sim.readings)
    ensures st.averageTemperature.Some? <==> st.activeSensors > 0
    ensures st.averageHumidity.Some? <==> st.activeSensors > 0
    ensures st.averagePressure.Some? <==> st.activeSensors > 0
    ensures st.lastUpdate == now
  {
    StatusCountsPartition(sim.sensors);
    var points := DataPoints(sim.readings);
    var temp := OnlineMean(sim.sensors, TemperatureMetric);
    var hum := OnlineMean(sim.sensors, HumidityMetric);
    var press := OnlineMean(sim.sensors, PressureMetric);
    st := SystemStats(
      |sim.sensors|,
      |SensorsWithStatus(sim.sensors, Online)|,
      |SensorsWithStatus(sim.sensors, Offline)|,
      |SensorsWithStatus(sim.sensors, Maintenance)|,
      if temp.Some? then Some(Round(temp.value * 10.0) as real / 10.0) else None,
      if hum.Some? then Some(Round(hum.value)) else None,
      if press.Some? then Some(Round(press.value)) else None,
      now,
      |ActiveAlerts(sim, DefaultAlertLimit)|,
      points);
  }
}

=== FILE: types.dfy ===
/**
 The records the IoT dashboard passes around (src/types/index.ts). Times are
 integer milliseconds since the epoch; temperatures, wind speeds and
 coordinates are reals; every other measurement is produced by `Math.round`
 or `Math.floor` and is an integer.
 */
module Types {

  /** Absence (`null`, `undefined`, or `NaN` for a mean of nothing). */
  datatype Option<T> = None | Some(value: T)

  datatype Region = North | South | East | West | Center

  datatype Coordinates = Coordinates(lat: real, lon: real)

  datatype SensorLocation = SensorLocation(
    id: string,
    name: string,
    city: string,
    country: string,
    coordinates: Coordinates,
    region: Region,
    zone: string)

  datatype SensorReading = SensorReading(
    timestamp: int,
    temperature: real,
    humidity: int,
    pressure: int,
    windSpeed: real,
    windDirection: int,
    visibility: int,
    uvIndex: int)

  datatype SensorStatus = Online | Offline | Maintenance | Error

  datatype IoTSensor = IoTSensor(
    id: string,
    name: string,
    location: SensorLocation,
    status: SensorStatus,
    lastReading: SensorReading,
    batteryLevel: int,
    signalStrength: int,
    firmware: string,
    installDate: int,
    lastMaintenance: int,
    isActive: bool)

  datatype Trend = Rising | Falling | Stable

  datatype Averages = Averages(temperature: real, humidity: int, pressure: int)

  datatype Trends = Trends(temperature: Trend, humidity: Trend, pressure: Trend)

  datatype SensorHistory = SensorHistory(
    sensorId: string,
    readings: seq<SensorReading>,
    averages: Averages,
    trends: Trends)

  datatype AlertType = TemperatureAlert | HumidityAlert | PressureAlert | BatteryAlert | ConnectivityAlert

  datatype Severity = Low | Medium | High | Critical

  /** An alert; the human-readable `message` is not modelled. */
  datatype Alert = Alert(
    id: string,
    sensorId: string,
    kind: AlertType,
    severity: Severity,
    timestamp: int,
    isResolved: bool,
    threshold: int,
    value: real)

  /** System statistics; an average over no online sensor is `None` (NaN in the dashboard). */
  datatype SystemStats = SystemStats(
    totalSensors: nat,
    activeSensors: nat,
    offlineSensors: nat,
    maintenanceSensors: nat,
    averageTemperature: Option<real>,
    averageHumidity: Option<int>,
    averagePressure: Option<int>,
    lastUpdate: int,
    activeAlerts: nat,
    dataPoints: nat)

  datatype RegionFilter = AllRegions | InRegion(region: Region)

  datatype StatusFilter = AllStatuses | WithStatus(status: SensorStatus)

  datatype SensorFilter = SensorFilter(region: RegionFilter, status: StatusFilter, showInactive: bool)

  /** Sensors and alerts are both looked up by their `id`. */
  function SensorKey(s: IoTSensor): string { s.id }

  function AlertKey(a: Alert): string { a.id }

  /** `findIndex` by key: the position of the first record whose key is `id`, if any. */
  function FirstWithKey<T>(xs: seq<T>, key: T -> string, id: string): (r: Option<nat>)
    ensures r.None? <==> forall j :: 0 <= j < |xs| ==> key(xs[j]) != id
    ensures r.Some? ==> r.value < |xs| && key(xs[r.value]) == id
    ensures r.Some? ==> forall j :: 0 <= j < r.value ==> key(xs[j]) != id
  {
    if |xs| == 0 then None
    else if key(xs[0]) == id then Some(0)
    else match FirstWithKey(xs[1..], key, id)
      case None => None
      case Some(k) => Some(k + 1)
  }
}
